=== FILE: README.md ===
# CodeSpark screen logic in Dafny

CodeSpark is a React Native app for learning programming. Learners browse a
catalogue of courses, enrol in one, and work through its chapters. Each
chapter opens only after the one before it is completed. The app also has a
timed multiple-choice quiz, an online compiler for nine languages, a chatbot
that writes the model's answer word by word, a notifications list and a
sign-up form. Almost all of the app is layout and calls to Firebase,
AsyncStorage, audio and navigation. This project models the decisions and
state changes inside the screens' event handlers and render functions. It
proves what those screens promise.

The modules follow the screens:

- `Quiz` (`quiz.dfy`): the quiz session. It covers question selection, the
  two-minute countdown, answering, advancing, the summary and the `mm:ss`
  clock. `QuizSession` holds the screen's state variables. Its `Tick`,
  `Answer` and `Advance` methods stand for the interval, an option press and
  the delayed step after an answer.
- `Courses` (`courses.dfy`): the course, chapter and enrolment records shared
  by the screens. It also holds the banner table, the two image-key
  normalisations, the title fallback, the section heading and the routing of
  a card press.
- `CourseView` (`course_view.dfy`): the course overview. It covers enrolment,
  the main button, the chapter-list toggle and the banner.
- `CourseDetail` (`course_detail.dfy`): the chapter gate and the load of the
  learner's stored course.
- `ChapterDetail` (`chapter_detail.dfy`): topic paging, the Finish button and
  the completion map that finishing a chapter applies.
- `Search` (`search.dfy`): the text search with category chips, the
  per-category sections and the result cards.
- `CourseList` (`course_list.dfy`): the home screen's category sections and
  cards.
- `MyCourse` (`my_course.dfy`): the enrolled-course cards and the empty state.
- `Compiler` (`compiler.dfy`): the language table and starter programs, the
  input-call detection, the language switch and the submission and output
  choice.
- `SignUp` (`sign_up.dfy`): the ordered form validation and account creation.
- `Chatbot` (`chatbot.dfy`): sending a question, cleaning the answer, and the
  word-by-word animation.
- `Notifications` (`notifications.dfy`): the stored, newest-first
  notification list.
- `Journeys` (`journeys.dfy`): properties that span several screens.
- Shared modules:
  - `Text` (`text.dfy`) models the JavaScript string operations the screens
    use: `trim`, `toLowerCase`, `includes`, `split`, `parseInt` and
    truthiness.
  - `Lists` (`lists.dfy`) models `filter` and the subsequence relation it
    establishes.
  - `Wrappers` (`wrappers.dfy`) holds `Option` and the outcome of a document
    read.

Values the app takes from outside are parameters of the operations: Firebase
documents and their read or write outcome, the authentication result, the
judge's and the model's answers, the device storage, the shuffled order and
the time.

## Model

| member | source | states |
|---|---|---|
| Quiz.Initial | app/screens/quizzDetail.tsx:30-47 | the session starts loading, with no questions, a zero score and 120 seconds on the clock, inside the invariant |
| Quiz.ScoreBounded | app/screens/quizzDetail.tsx:185-203 | in every reachable state the score is at most the number of questions |
| Quiz.SelectionIsPermutationPrefix | app/screens/quizzDetail.tsx:76 | for any shuffle, the session gets min(n, 10) questions; each comes from the quiz, and none appears more often than in the quiz |
| Quiz.LoadStep | app/screens/quizzDetail.tsx:68-91 | a found quiz stores the selected questions; a missing quiz or a failed read leaves the list as it was; loading ends either way; nothing else changes and the invariant is kept |
| Quiz.TickStep | app/screens/quizzDetail.tsx:104-119 | a completed session does not change; the last second sets the clock to 0 and completes the session; otherwise one second is taken off; only the clock and the completion flag change; the invariant is kept |
| Quiz.TicksCountDown | app/screens/quizzDetail.tsx:108-115 | before the clock runs out, n ticks take exactly n seconds off and leave the session running |
| Quiz.TicksAfterCompletion | app/screens/quizzDetail.tsx:105 | once completed, any number of ticks leaves the state unchanged, so the time left is frozen |
| Quiz.TicksRunOut | app/screens/quizzDetail.tsx:108-115 | a running session with t seconds left completes at 0 after exactly t ticks and not before |
| Quiz.TimeoutAfter120Ticks | app/screens/quizzDetail.tsx:47-119 | a fresh session completes with no time left after exactly 120 ticks and is still running after any fewer |
| Quiz.AnswerStep | app/screens/quizzDetail.tsx:185-192 | while the options are enabled, a press records the answer and adds one point exactly when it is the correct answer; otherwise nothing changes; the invariant is kept |
| Quiz.AnswerScoresOnce | app/screens/quizzDetail.tsx:307 | a second press on the same question changes nothing, so each question is scored at most once |
| Quiz.AdvanceStep | app/screens/quizzDetail.tsx:194-202 | before the last question, the index goes up by one and the answer is cleared; on the last question the session completes with the index unchanged; score, clock and questions stay |
| Quiz.CorrectAnswerAdvances | app/screens/quizzDetail.tsx:185-203 | answering correctly and advancing gains one point and moves to an enabled next question, or completes after the last one |
| Quiz.AllCorrectScoresAll | app/screens/quizzDetail.tsx:185-203 | answering every remaining question correctly, one after another, completes the session with one point per question |
| Quiz.Summarise | app/screens/quizzDetail.tsx:220-229 | total is the question count and correct is the score; correct plus wrong is the total; points are ten per correct answer; wrong is between 0 and the total in reachable states |
| Quiz.Pad2 | app/screens/quizzDetail.tsx:237 | the result is all digits; below 100 it is exactly two digits that read back as the number; from 10 on it is the plain numeral |
| Quiz.TimeDisplayRoundTrip | app/screens/quizzDetail.tsx:206-210 | below 100 minutes the display is five characters `mm:ss`; its first two digits read back as the whole minutes `t / 60`, its last two as the seconds `t % 60`, so together they give back the remaining time |
| Quiz.QuizSession.constructor | app/screens/quizzDetail.tsx:30-47 | the fields hold the initial session, which satisfies the invariant |
| Quiz.QuizSession.Load | app/screens/quizzDetail.tsx:68-91 | the new state is the load step of the old one; the invariant is preserved |
| Quiz.QuizSession.Tick | app/screens/quizzDetail.tsx:104-119 | the new state is the tick step of the old one; the invariant is preserved |
| Quiz.QuizSession.Answer | app/screens/quizzDetail.tsx:185-192 | the new state is the answer step of the old one; the invariant is preserved |
| Quiz.QuizSession.Advance | app/screens/quizzDetail.tsx:194-202 | the new state is the advance step of the old one; the invariant is preserved |
| Quiz.AnswerStepAsWritten | app/screens/quizzDetail.tsx:307 | with the truthiness guard as written, a press while an empty answer is selected is still scored |
| Quiz.EmptyOptionScoredTwice | app/screens/quizzDetail.tsx:293-311 | a one-question quiz whose correct option is empty scores 2 out of 1 when that option is pressed twice, and the summary's wrong count is then -1 (shown as `0-1`) |
| Courses.AssetFor | app/screens/Search.tsx:148 | a key of the table gets its own asset; any other key gets the default asset; so every key resolves to an asset of the table |
| Courses.CutImageKey | app/courseView/index.tsx:137-143 | a missing or empty name gives "default"; otherwise the key is the trimmed, lower-cased name up to its first `.`, or all of it when it has no `.` |
| Courses.PlainImageKey | app/component/CourseList.tsx:127 | a missing or empty name gives "default"; otherwise the key is exactly the trimmed name in lower case |
| Courses.ImageKeysAgreeWithoutDot | app/screens/myCourse.tsx:121 | for names without a `.`, the cutting and the plain normalisation give the same key |
| Courses.CutImageKeyOfFileName | app/screens/Search.tsx:141-147 | a name `<key>.<extension>`, with the key normalised and dot-free, gives back `<key>` whatever the extension |
| Courses.PlainImageKeyOfNormalName | app/screens/myCourse.tsx:121 | a name that is already trimmed and lower case is its own key |
| Courses.PlainImageKeyKeepsExtension | app/component/CourseList.tsx:127-128 | for a name like `python.png`, the cut key finds the `python` banner, while the plain key keeps the extension and falls back to the default banner |
| Courses.CoursePressRoute | app/screens/Search.tsx:89-107 | nothing without a user or when the read of the enrolment record fails; otherwise the course detail screen exactly when an enrolment record exists for the course, the overview when not; both get the catalogue course |
| Courses.CardTitle | app/screens/Search.tsx:161 | a card title is never empty, and a non-empty stored title is shown as it is |
| Courses.SectionTitle | app/component/CourseList.tsx:181-182 | "Must Try Courses" for the popular section; otherwise the category with its first letter upper-cased and the rest unchanged, followed by " Courses" |
| Courses.SectionTitleNamesCategory | app/screens/Search.tsx:199-202 | outside the popular section, the heading in lower case is the category in lower case followed by " courses" |
| CourseView.Enroll | app/courseView/index.tsx:85-92 | the record at the course's path is the course with every field copied plus the enrolment time; every other record stays; the key set grows by that path only |
| CourseView.ButtonLabel | app/courseView/index.tsx:199-204 | a spinner exactly while loading; otherwise "Start Learning" exactly when enrolled and "Enroll Now" exactly when not |
| CourseView.ToggleText | app/courseView/index.tsx:215-217 | "Hide Chapters" exactly when the list is visible, "View Chapters" exactly when it is hidden |
| Courses.CutKeyBanner | app/courseView/index.tsx:137-144 | the table's entry for the cut image key; the default banner for a key the table lacks and for a course without an image name; the search cards (app/screens/Search.tsx:140-148) pick theirs the same way |
| CourseView.CourseViewScreen.constructor | app/courseView/index.tsx:63-65 | all three flags start false |
| CourseView.CourseViewScreen.CheckEnrollment | app/courseView/index.tsx:74-79 | the course becomes enrolled when a record exists at its path; without a user or a course nothing changes; the other flags stay |
| CourseView.CourseViewScreen.EnrollCourse | app/courseView/index.tsx:81-99 | without a user or a course nothing happens; otherwise the record is written only if the write succeeds; enrolled becomes true only then; loading ends either way |
| CourseView.CourseViewScreen.ToggleChaptersList | app/courseView/index.tsx:108-110 | the visibility flag is negated and nothing else changes |
| CourseView.ToggleTwiceRestores | app/courseView/index.tsx:108-110 | toggling twice restores the chapter list's visibility |
| CourseDetail.HandleChapterPress | app/courseView/courseDetail.tsx:65-74 | chapter 0 always opens; a later chapter opens exactly when the one before it is completed; an opened chapter is handed over with the stored course; a denied press goes nowhere |
| CourseDetail.UnlockedIffAllBeforeCompleted | app/courseView/courseDetail.tsx:66 | when completion is a prefix of the list, a chapter is open exactly when every chapter before it is completed |
| CourseDetail.CompletionIcon | app/courseView/courseDetail.tsx:131-135 | "checkmark-circle" exactly for completed chapters, "play" exactly for the others |
| CourseDetail.StoredCourse | app/courseView/courseDetail.tsx:57 | the enrolment record's course when one exists, the course the screen was given otherwise |
| CourseDetail.CourseDetailScreen.constructor | app/courseView/courseDetail.tsx:28-30 | no stored course, and loading |
| CourseDetail.CourseDetailScreen.ShownChapters | app/courseView/courseDetail.tsx:123 | the stored course's chapters, none before a stored course exists |
| CourseDetail.CourseDetailScreen.LoadProgress | app/courseView/courseDetail.tsx:49-63 | without a course or a user nothing happens; a successful read stores the record or the given course; a failed read stores nothing; loading ends in both cases |
| CourseDetail.CourseDetailScreen.PressChapter | app/courseView/courseDetail.tsx:65-74 | a press on a listed chapter has the gate's outcome on the stored course and changes no state |
| ChapterDetail.MarkCompleted | app/courseView/chapterDetail.tsx:97-99 | same length and order; every chapter with the finished name becomes completed; every other chapter and every other field is unchanged |
| ChapterDetail.MarkCompletedIdempotent | app/courseView/chapterDetail.tsx:97-99 | applying the completion map twice is applying it once |
| ChapterDetail.MarkCompletedNoMatch | app/courseView/chapterDetail.tsx:97-99 | a name no chapter has leaves the list unchanged |
| ChapterDetail.MarkCompletedCommutes | app/courseView/chapterDetail.tsx:115-117 | finishing two chapters in either order gives the same list |
| ChapterDetail.NextTopicIndex | app/courseView/chapterDetail.tsx:134-140 | the index moves on by one exactly when Next is shown (below the last topic), otherwise stays, and never leaves the topic range |
| ChapterDetail.PreviousTopicIndex | app/courseView/chapterDetail.tsx:142-148 | the index moves back by one exactly when Previous is shown (above 0), otherwise stays |
| ChapterDetail.PagingRoundTrip | app/courseView/chapterDetail.tsx:134-148 | Next then Previous, and Previous then Next, return to the starting topic wherever the first button is shown |
| ChapterDetail.NextTimesStopsAtLast | app/courseView/chapterDetail.tsx:205-217 | n presses of Next move n topics on but stop at the last topic, where the Finish button is shown |
| ChapterDetail.SaveChapterCompletion | app/courseView/chapterDetail.tsx:91-105 | only a signed-in user's existing record is written, and only its chapters change: they become the completion map of the course's chapters; otherwise, or on failure, the store is unchanged |
| ChapterDetail.UpdatedCourse | app/courseView/chapterDetail.tsx:113-118 | the course handed back is the same course with its chapters passed through the completion map |
| ChapterDetail.ChapterScreen.constructor | app/courseView/chapterDetail.tsx:80-88 | for a chapter with content, the screen starts on topic 0 with the topic count of the chapter |
| ChapterDetail.ChapterScreen.NextTopic | app/courseView/chapterDetail.tsx:134-140 | the index becomes the Next index and stays within the topics |
| ChapterDetail.ChapterScreen.PreviousTopic | app/courseView/chapterDetail.tsx:142-148 | the index becomes the Previous index and stays within the topics |
| ChapterDetail.ChapterScreen.Finish | app/courseView/chapterDetail.tsx:107-125 | the chapter is marked completed, the store is updated as the save describes, the course handed back is the updated course, and loading ends |
| Search.FilteredCourses | app/screens/Search.tsx:77-87 | an order-preserving subsequence of the courses holding exactly those that match both the search and the chip test |
| Search.QueryIgnoresCategory | app/screens/Search.tsx:78-84 | with a query typed, the result is the courses whose lower-cased title contains the lower-cased query, whatever the chip |
| Search.EmptyQueryAllKeepsEverything | app/screens/Search.tsx:78-84 | with no query and the "All" chip, every course is kept, in order |
| Search.EmptyQueryFiltersByCategory | app/screens/Search.tsx:82-84 | with no query and another chip, a course is kept exactly when its category equals the chip ignoring case; a course without a category never is |
| Search.ChipIgnoresCase | app/screens/Search.tsx:84 | chips that differ only in case select the same list |
| Search.SectionCourses | app/screens/Search.tsx:183-198 | an order-preserving subsequence holding exactly the courses that match the search, the chip (not bypassed) and the section's own test |
| Search.RenderSection | app/screens/Search.tsx:182-214 | no section when its course list is empty; otherwise the section heading with those courses |
| Search.SectionWithinFiltered | app/screens/Search.tsx:183-198 | every course of a section is also in the filtered list |
| Search.SectionRespectsChip | app/screens/Search.tsx:183-198 | with a chip other than "All", a section holds only that chip's category, even while a query is typed |
| Search.CourseCard | app/screens/Search.tsx:139-179 | the title falls back to 'No Title Available'; the chapter line is the count followed by " Chapters", or "No Chapters" without a count; the banner is the table's entry for the cut image key, or the default banner when the table lacks that key |
| CourseList.CoursesByCategory | app/component/CourseList.tsx:170-175 | an order-preserving subsequence: for "popular", exactly the courses of type popular; otherwise exactly those whose category equals the name, case-sensitive |
| CourseList.RenderSection | app/component/CourseList.tsx:177-196 | no section for an empty category; otherwise its heading and that category's courses |
| CourseList.RenderSections | app/component/CourseList.tsx:177-196 | at most one section per category, none of them empty, each one the rendering of some category |
| CourseList.CourseShownIffSectioned | app/component/CourseList.tsx:170-182 | a course appears on the home screen exactly when it is popular or its category is spelled exactly as one of the section names |
| CourseList.CourseCard | app/component/CourseList.tsx:118-128 | the title or 'No Title Available', the chapter count or 0, and the table's entry for the plain key; the default banner without an image name or for a key the table lacks |
| MyCourse.ChapterCount | app/screens/myCourse.tsx:120 | 0 when there is no count or no integer can be read from it |
| MyCourse.ChapterCountOfNumeral | app/screens/myCourse.tsx:120 | a count stored as a numeral, with or without a trailing unit, is read back as that number |
| MyCourse.ChapterCountWithoutDigits | app/screens/myCourse.tsx:120 | a count with no leading digit, after white space and without a sign, shows 0 |
| MyCourse.CourseCard | app/screens/myCourse.tsx:117-122 | the title or 'No Title Available', the parsed chapter count, and the table's image for the plain key; the default image for an absent name or a key the table lacks |
| MyCourse.EnrolledView | app/screens/myCourse.tsx:219-235 | the empty state exactly when no course is enrolled; otherwise one card per enrolled course, in order |
| Compiler.EveryLanguageHasSnippet | app/screens/Compiler.tsx:26-108 | every language of the picker has a starter program |
| Compiler.InputMarkers | app/screens/Compiler.tsx:110-133 | no input call is empty, and a language has input calls exactly when it is one of the picker's |
| Compiler.CodeRequiresInput | app/screens/Compiler.tsx:110-133 | false for an unknown id and for an empty program |
| Compiler.CodeRequiresInputIff | app/screens/Compiler.tsx:110-133 | for any program, input is needed exactly when the program contains one of its language's input calls (`fgets` or `readline` for PHP) |
| Compiler.ContainsAnyIff | app/screens/Compiler.tsx:129 | the marker search holds exactly when some marker occurs in the code, as the two `includes` calls joined by "or" do |
| Compiler.StarterProgramInput | app/screens/Compiler.tsx:38-133 | on the starter programs, input is required exactly for C++, Java, C, Rust and Go |
| Compiler.Stdin | app/screens/Compiler.tsx:185 | the typed input when the input box is shown, the empty string otherwise |
| Compiler.OutputText | app/screens/Compiler.tsx:190 | the first non-empty field of stdout, compile output and stderr, else "No output"; never empty |
| Compiler.CompilerScreen.constructor | app/screens/Compiler.tsx:137-141 | the first language, Python, with its starter program; input and output empty; not loading |
| Compiler.CompilerScreen.HandleLanguageChange | app/screens/Compiler.tsx:161-167 | the selected language with its starter program; input and output cleared |
| Compiler.CompilerScreen.EditCode | app/screens/Compiler.tsx:262 | only the code changes |
| Compiler.CompilerScreen.EditInput | app/screens/Compiler.tsx:277 | only the typed input changes |
| Compiler.CompilerScreen.HandleCompile | app/screens/Compiler.tsx:169-197 | the submission carries the code, the numeric language id and the chosen stdin; the output is the judge's output choice, or the connection message without an answer; loading ends |
| Compiler.PickLanguageShowsInput | app/screens/Compiler.tsx:143-167 | after picking a language, the input box is shown exactly for C++, Java, C, Rust and Go |
| SignUp.ValidateForm | app/auth/singUp.tsx:56-78 | no error exactly for acceptable forms; each error is reported exactly when every earlier guard passed and its own fails |
| SignUp.ErrorMessage | app/auth/singUp.tsx:58-74 | every rejection has a non-empty toast |
| SignUp.ErrorMessagesDistinct | app/auth/singUp.tsx:58-74 | no two rejections share a toast |
| SignUp.PasswordIrrelevantToEarlierGuards | app/auth/singUp.tsx:57-68 | changing the password never changes a rejection made by the name or e-mail guards |
| SignUp.CreateNewAccount | app/auth/singUp.tsx:80-109 | rejected exactly for unacceptable forms, with the validator's error; created exactly when authentication and the save succeed, storing the user under the e-mail; otherwise the store is unchanged |
| SignUp.OutcomeToast | app/auth/singUp.tsx:80-98 | no toast exactly when the account is created; the validation message for a rejection; "Incorrect Email & Password" for a failure |
| SignUp.RejectedFormIgnoresService | app/auth/singUp.tsx:81-83 | a rejected form has the same outcome whatever the authentication service would answer |
| Text.TrimStart | app/courseView/index.tsx:139 | the suffix after the leading white space, which does not start with white space |
| Text.TrimEnd | app/courseView/index.tsx:139 | the prefix before the trailing white space, which does not end with white space |
| Text.TrimKeepsUnpadded | app/component/CourseList.tsx:127 | a string neither starting nor ending with white space is its own trim |
| Text.BlankIffAllSpace | app/screens/Chatbot.tsx:94 | the trim is empty exactly when every character is white space |
| Text.ToLower | app/screens/Search.tsx:79 | the same length, with each character lower-cased and every non-letter kept |
| Text.ContainsEmptyAndSelf | app/screens/Search.tsx:79 | `includes` finds the empty string and the text itself, and never a pattern longer than the text |
| Text.ContainsInConcat | app/screens/Compiler.tsx:110-133 | an occurrence in either part is an occurrence in the concatenation |
| Text.ParseIntNaN | app/screens/myCourse.tsx:120 | `NaN` exactly when no digit follows the leading white space and the optional sign |
| Text.ParseIntReadsSignedDigits | app/screens/myCourse.tsx:120 | otherwise the value of the digits up to the first non-digit, negated after a `-` |
| Text.ParseIntOfNumeral | app/screens/Compiler.tsx:184 | the numeral of a number, followed by any non-digit text, reads back as that number |
| Text.Split | app/screens/Chatbot.tsx:123 | at least one part, no part contains the separator, and joining the parts with it gives back the text |
| Chatbot.Sanitize | app/screens/Chatbot.tsx:111 | no `*` and no `_` remain, and every other character of the answer remains exactly as many times as the answer holds it |
| Lists.FilterCounts | app/screens/Search.tsx:77 | `filter` keeps each accepted element exactly as many times as the list holds it, and drops every rejected one |
| Chatbot.SanitizeIsOneFilter | app/screens/Chatbot.tsx:111 | the two replacements are one filter, so the result is an order-preserving subsequence of the answer |
| Chatbot.SanitizeKeepsClean | app/screens/Chatbot.tsx:111 | a text without `*` and `_` is left as it is |
| Chatbot.SanitizeIdempotent | app/screens/Chatbot.tsx:111 | cleaning twice is cleaning once |
| Chatbot.BotText | app/screens/Chatbot.tsx:109-116 | the cleaned candidate text; "No response received." when it is missing or empty; "Error fetching response." when the request failed |
| Chatbot.PutBot | app/screens/Chatbot.tsx:132-141 | the last message becomes the bot's text, overwriting a trailing bot message or pushing a new one; earlier messages stay |
| Chatbot.Initial | app/screens/Chatbot.tsx:64-72 | the list starts with the two greetings, with no animation running |
| Chatbot.SubmitStep | app/screens/Chatbot.tsx:93-100 | a blank input changes nothing; otherwise the input is appended as a user message, cleared, and loading starts |
| Chatbot.StartAnimation | app/screens/Chatbot.tsx:122-127 | the answer is split at spaces, a fresh animation starts with no words written, and auto-scroll is on |
| Chatbot.AnimationStep | app/screens/Chatbot.tsx:129-147 | while words remain, the next word and a space are written into the last bot message; after the last word the interval stops and auto-scroll turns off; earlier messages are never touched; the written text stays the prefix of the words |
| Chatbot.TicksWritePrefix | app/screens/Chatbot.tsx:129-142 | after k ticks the first k words, each followed by a space, are the text of the last message, which is a bot message |
| Chatbot.TicksStopAfterLastWord | app/screens/Chatbot.tsx:143-146 | the animation is still running after as many ticks as there are words, and the next tick stops it |
| Chatbot.AnimationWritesWholeText | app/screens/Chatbot.tsx:122-148 | once the animation has run, the last message is the bot's, holding the whole text followed by a space; the interval has stopped and auto-scroll is off |
| Chatbot.ChatScreen.constructor | app/screens/Chatbot.tsx:69-72 | the fields hold the initial chat state |
| Chatbot.ChatScreen.EditInput | app/screens/Chatbot.tsx:232 | only the input text changes |
| Chatbot.ChatScreen.SendMessage | app/screens/Chatbot.tsx:93-107 | the new state is the submit step; the prompt sent is the input, and nothing is sent for a blank input |
| Chatbot.ChatScreen.ReceiveReply | app/screens/Chatbot.tsx:109-119 | the bot text of the reply starts animating and loading ends |
| Chatbot.ChatScreen.DisplayBotMessage | app/screens/Chatbot.tsx:122-128 | the new state is the start of the animation of the text |
| Chatbot.ChatScreen.Tick | app/screens/Chatbot.tsx:129-147 | the new state is one animation step of the old one |
| Notifications.Prepend | app/screens/Notification.tsx:41 | the message first, then the old list unchanged |
| Notifications.MessageOf | app/screens/Notification.tsx:39 | the body, or the empty string when it is absent or empty |
| Notifications.StoredList | app/screens/Notification.tsx:26-27 | the stored list, or the empty list when the key is absent |
| Notifications.StoreNotification | app/index.tsx:61-70 | when the read, the parse and the write succeed, the stored list gains the message in front, with the old list after it; when one fails, the stored value stays as it was |
| Notifications.StoreAll | app/index.tsx:61-70 | storing messages one after another leaves those whose store succeeded newest first, in front of what was stored before |
| Notifications.ScreenView | app/screens/Notification.tsx:78-95 | a spinner exactly while loading; the empty message exactly when loaded with no notifications; otherwise the cards of the list |
| Notifications.NotificationScreen.constructor | app/screens/Notification.tsx:19-20 | an empty list, loading |
| Notifications.NotificationScreen.Load | app/screens/Notification.tsx:24-36 | a successful read shows the stored list (empty when the key is absent); a failed read keeps the list; loading ends; once read, the list is the stored one |
| Notifications.NotificationScreen.Receive | app/screens/Notification.tsx:38-45 | the message goes in front of the list whether or not the write succeeds; the new list is stored only when it does, and only then do list and storage stay in sync |
| Notifications.NotificationScreen.Clear | app/screens/Notification.tsx:50-53 | the key is removed and the list emptied, which keeps them in sync |
| Journeys.FinishingOpenChapterKeepsPrefix | app/courseView/chapterDetail.tsx:113-118 | finishing a chapter the gate let through keeps completion a prefix, marks that chapter and opens the next one |
| Journeys.FinishedChapterReloads | app/courseView/chapterDetail.tsx:91-125 | after a successful save, reloading the course detail screen shows exactly the course the chapter screen handed back |
| Journeys.EnrollThenFinishFirstChapter | app/courseView/index.tsx:81-99 | enrolling, loading, opening the first chapter and finishing it leaves the first chapter completed and the second one open |
| Journeys.EnrolledCardOpensDetail | app/component/CourseList.tsx:93-115 | after enrolling, a press on the course's card opens the course detail screen |
| Journeys.CategoryCaseDiffersBetweenScreens | app/component/CourseList.tsx:174 | a course of category "Coding" is in the search screen's "coding" section but not in the home list's |

## Left out

- Firebase, AsyncStorage, the authentication service, the judge and the model API are not called. Their answers and whether each read or write succeeds are parameters. For the notification store, a failed parse of the stored value counts as a failed read. A JSON parse error of a navigation parameter is not modelled.
- Timers, audio, haptics, fade animations, scrolling, the title set from the quiz document and navigation side effects are left out. The one-second interval, the delayed advance and the 50 ms animation interval are explicit steps.
- Floating point is left out: star ratings and the random rating, the progress bar width and the swipe index computed from the scroll offset.
- Quiz.SelectQuestions: the random comparator sort is modelled as an arbitrary permutation given as a parameter, so the distribution of the shuffle is not modelled.
- Quiz.TickStep: the interval also runs while the quiz loads. The model allows ticks in any state, but it does not model the index into an empty question list that the screen makes when a quiz has no questions and is not completed.
- Quiz.AnswerStep: two presses in the same second (before the re-render disables the options) and the second delayed advance they would schedule are not modelled. The options are taken as disabled as soon as an answer is recorded.
- Text.ParseInt: JavaScript's `parseInt` returns a double, so digits beyond 2^53 lose precision there. The model reads them as an exact integer.
- Text.Trim, Text.ToLower and Text.ToUpperChar treat only ASCII white space and letters. String lengths count characters, not UTF-16 code units.
- Courses.AssetFor: JavaScript object lookups also find inherited keys such as `constructor`; the tables here hold only their own keys.
- Courses.CardTitle: a course document without a `courseTitle` field is treated as an empty title; the screens that call `toLowerCase` on it would throw instead.
- Search.RenderSection: the search screen defines `renderCourseSection` but renders only the filtered list; the section is modelled as defined.
- CourseList.CourseCard: the chapter count is kept as the stored text. The rating fallback is left out.
- Compiler.CompilerScreen.HandleLanguageChange requires a language of the table, because the picker offers only those. An unknown id would set the code to `undefined`.
- Concurrency is left out. This covers overlapping chatbot animations when a second answer arrives before the first finishes, a notification arriving while the stored list is still loading, and an enrolment pressed before the enrolment check returns.
- Chatbot.ChatScreen.Tick: the screen mutates the last message object in place inside a copied array. Because messages are values here, that aliasing is not modelled.
- Notifications.NotificationScreen.Receive: the storage write is not awaited by the screen. The model decides its outcome at once, so a write that completes after a later notification is not modelled.
- Notifications.NotificationScreen.Clear: a failure of the storage removal, which would leave the list shown, is not modelled.
- SignUp.CreateNewAccount: the loading flag and the stored user detail in the app context are not modelled. When the save fails after authentication succeeded, the account the authentication service has already created is not modelled; the outcome only says the user record was not stored.
- The quiz list screen, the profile and login screens, the AI assistant component, the layouts and the theme constants are not part of this model.

## Findings

| source | as written | input that shows it | evidently intended | confidence | as-written member | corrected member |
|---|---|---|---|---|---|---|
| app/screens/quizzDetail.tsx:307 | the options are disabled by `!!selectedAnswer`, which is false for an empty answer string | a question with options `""` and `"x"` whose correct answer is `""`, with `""` pressed twice: the score is 2 for one question and the wrong count is -1 (shown as `0-1`) | the options stay disabled once any answer is selected (`selectedAnswer !== null`), so each question is scored at most once | not executed | Quiz.EmptyOptionScoredTwice | Quiz.AnswerScoresOnce |

=== FILE: chapter_detail.dfy ===
/** The chapter screen: paging through the chapter's topics, and finishing the
    chapter, which marks it completed in the learner's enrolment record and in
    the course handed back to the course detail screen. */
module ChapterDetail {
  import opened Wrappers
  import opened Text
  import opened Courses

  // ---------------------------------------------------------------------------
  // The completion map

  /** `chapters.map(ch => ch.chapterName === name ? {...ch, completed: true} : ch)`:
      the same chapters in the same order, each one named `name` now completed,
      every other field and every other chapter as before. */
  function MarkCompleted(chapters: seq<Chapter>, name: string): (r: seq<Chapter>)
    ensures |r| == |chapters|
    ensures forall i :: 0 <= i < |r| ==>
      && r[i].chapterName == chapters[i].chapterName
      && r[i].content == chapters[i].content
      && r[i].completed == (chapters[i].completed || chapters[i].chapterName == name)
  {
    seq(|chapters|, i requires 0 <= i < |chapters| =>
      if chapters[i].chapterName == name then chapters[i].(completed := true) else chapters[i])
  }

  /** Finishing the same chapter twice is finishing it once. */
  lemma MarkCompletedIdempotent(chapters: seq<Chapter>, name: string)
    ensures MarkCompleted(MarkCompleted(chapters, name), name) == MarkCompleted(chapters, name)
  {
    var once := MarkCompleted(chapters, name);
    var twice := MarkCompleted(once, name);
    forall i | 0 <= i < |chapters| ensures twice[i] == once[i] {
    }
  }

  /** A name no chapter has changes nothing. */
  lemma MarkCompletedNoMatch(chapters: seq<Chapter>, name: string)
    requires forall i :: 0 <= i < |chapters| ==> chapters[i].chapterName != name
    ensures MarkCompleted(chapters, name) == chapters
  {
    var r := MarkCompleted(chapters, name);
    forall i | 0 <= i < |chapters| ensures r[i] == chapters[i] {
    }
  }

  /** Finishing chapters in either order gives the same list. */
  lemma MarkCompletedCommutes(chapters: seq<Chapter>, a: string, b: string)
    ensures MarkCompleted(MarkCompleted(chapters, a), b) == MarkCompleted(MarkCompleted(chapters, b), a)
  {
    var ab := MarkCompleted(MarkCompleted(chapters, a), b);
    var ba := MarkCompleted(MarkCompleted(chapters, b), a);
    forall i | 0 <= i < |chapters| ensures ab[i] == ba[i] {
    }
  }

  // ---------------------------------------------------------------------------
  // Guards and buttons

  /** The error view: no chapter, no or empty content, or no course. */
  predicate ShowsErrorView(chapter: Option<Chapter>, course: Option<Course>) {
    chapter.None? || chapter.value.content.None? || |chapter.value.content.value| == 0 || course.None?
  }

  /** The topic count of a chapter shown without the error view. */
  function TotalTopics(chapter: Option<Chapter>, course: Option<Course>): (n: nat)
    requires !ShowsErrorView(chapter, course)
    ensures n >= 1
  {
    |chapter.value.content.value|
  }

  /** `currentTopicIndex > 0`: the Previous button. */
  predicate ShowsPrevious(index: nat) {
    index > 0
  }

  /** `currentTopicIndex < totalTopics - 1 ? Next : Finish`. */
  predicate ShowsFinish(index: nat, totalTopics: nat) {
    !(index < totalTopics - 1)
  }

  /** Next: one topic on, unless on the last. */
  function NextTopicIndex(index: nat, totalTopics: nat): (r: nat)
    ensures index < totalTopics ==> r < totalTopics
    ensures r == index || r == index + 1
    ensures r == index + 1 <==> !ShowsFinish(index, totalTopics)
  {
    if index < totalTopics - 1 then index + 1 else index
  }

  /** Previous: one topic back, unless on the first. */
  function PreviousTopicIndex(index: nat): (r: nat)
    ensures r <= index && (index > 0 ==> r == index - 1)
    ensures r == index <==> !ShowsPrevious(index)
  {
    if index > 0 then index - 1 else index
  }

  /** Next and Previous undo each other wherever the button pressed first is
      shown. */
  lemma PagingRoundTrip(index: nat, totalTopics: nat)
    requires index < totalTopics
    ensures !ShowsFinish(index, totalTopics) ==> PreviousTopicIndex(NextTopicIndex(index, totalTopics)) == index
    ensures ShowsPrevious(index) ==> NextTopicIndex(PreviousTopicIndex(index), totalTopics) == index
  {
  }

  /** `n` presses of Next. */
  function NextTimes(index: nat, totalTopics: nat, n: nat): nat
    decreases n
  {
    if n == 0 then index else NextTimes(NextTopicIndex(index, totalTopics), totalTopics, n - 1)
  }

  /** `n` presses of Next from a topic move `n` topics on, but never past the
      last one, where the Finish button is shown. */
  lemma {:induction false} NextTimesStopsAtLast(index: nat, totalTopics: nat, n: nat)
    requires index < totalTopics
    ensures NextTimes(index, totalTopics, n) == if index + n < totalTopics then index + n else totalTopics - 1
    ensures index + n >= totalTopics - 1 ==> ShowsFinish(NextTimes(index, totalTopics, n), totalTopics)
    decreases n
  {
    if n > 0 {
      NextTimesStopsAtLast(NextTopicIndex(index, totalTopics), totalTopics, n - 1);
    }
  }

  // ---------------------------------------------------------------------------
  // Saving the completion

  /** The remote update of the finish: with a signed-in user and an existing
      enrolment record, the record's chapters become the completion map of the
      course's chapters (the record's other fields stay); otherwise, or when
      the read or the write fails, the store is unchanged. */
  function SaveChapterCompletion(userId: Option<string>, course: Course, chapter: Chapter,
                                 store: EnrolledStore, writeOk: bool): (r: EnrolledStore)
    ensures r.Keys == store.Keys
    ensures forall k :: k in store && k != DocKey(userId.GetOr(""), course.courseTitle) ==> r[k] == store[k]
    ensures var key := DocKey(userId.GetOr(""), course.courseTitle);
      (r != store <==>
        Truthy(userId) && writeOk && key in store
        && store[key].course.chapters != MarkCompleted(course.chapters, chapter.chapterName))
    ensures var key := DocKey(userId.GetOr(""), course.courseTitle);
      Truthy(userId) && writeOk && key in store ==>
        r[key] == store[key].(course := store[key].course.(chapters := MarkCompleted(course.chapters, chapter.chapterName)))
  {
    var key := DocKey(userId.GetOr(""), course.courseTitle);
    if Truthy(userId) && writeOk && key in store then
      var doc := store[key];
      store[key := doc.(course := doc.course.(chapters := MarkCompleted(course.chapters, chapter.chapterName)))]
    else store
  }

  /** The course handed back to the course detail screen: the same course with
      the finished chapter marked. */
  function UpdatedCourse(course: Course, chapter: Chapter): (r: Course)
    ensures r.(chapters := course.chapters) == course
    ensures r.chapters == MarkCompleted(course.chapters, chapter.chapterName)
  {
    course.(chapters := MarkCompleted(course.chapters, chapter.chapterName))
  }

  // ---------------------------------------------------------------------------
  // The screen object

  /** The chapter screen for a chapter with content and its course. */
  class ChapterScreen {
    const course: Course
    const totalTopics: nat
    var chapter: Chapter
    var currentTopicIndex: nat
    var loading: bool

    ghost predicate Valid()
      reads this
    {
      totalTopics >= 1 && currentTopicIndex < totalTopics
    }

    constructor(chapter: Chapter, course: Course)
      requires !ShowsErrorView(Some(chapter), Some(course))
      ensures this.chapter == chapter && this.course == course
      ensures totalTopics == |chapter.content.value|
      ensures currentTopicIndex == 0 && !loading && Valid()
    {
      this.course := course;
      this.chapter := chapter;
      totalTopics := |chapter.content.value|;
      currentTopicIndex := 0;
      loading := false;
    }

    method NextTopic()
      requires Valid()
      modifies this
      ensures currentTopicIndex == NextTopicIndex(old(currentTopicIndex), totalTopics)
      ensures chapter == old(chapter) && loading == old(loading)
      ensures Valid()
    {
      if currentTopicIndex < totalTopics - 1 {
        currentTopicIndex := currentTopicIndex + 1;
      }
    }

    method PreviousTopic()
      requires Valid()
      modifies this
      ensures currentTopicIndex == PreviousTopicIndex(old(currentTopicIndex))
      ensures chapter == old(chapter) && loading == old(loading)
      ensures Valid()
    {
      if currentTopicIndex > 0 {
        currentTopicIndex := currentTopicIndex - 1;
      }
    }

    /** Finish: mark the chapter completed, save, and hand back the updated
      course. The navigation happens whether or not the save went through. */
    method Finish(userId: Option<string>, store: EnrolledStore, writeOk: bool)
      returns (newStore: EnrolledStore, next: Course)
      requires Valid()
      modifies this
      ensures chapter == old(chapter).(completed := true)
      ensures newStore == SaveChapterCompletion(userId, course, old(chapter), store, writeOk)
      ensures next == UpdatedCourse(course, old(chapter))
      ensures !loading && currentTopicIndex == old(currentTopicIndex)
    {
      loading := true;
      chapter := chapter.(completed := true);
      newStore := SaveChapterCompletion(userId, course, chapter, store, writeOk);
      next := UpdatedCourse(course, chapter);
      loading := false;
    }
  }
}

=== FILE: chatbot.dfy ===
/** The chatbot screen: the message list, sending a question, cleaning the
    model's answer, and the word-by-word animation that writes the answer into
    the last bot message. */
module Chatbot {
  import opened Wrappers
  import opened Text
  import opened Lists

  datatype Sender = User | Bot

  datatype Message = Message(text: string, sender: Sender)

  /** The two greetings the list starts with. */
  const DefaultMessages: seq<Message> := [Message("Hey there!", Bot), Message("How may I help you?", Bot)]

  // ---------------------------------------------------------------------------
  // The answer

  /** The answer's clean-up: two global replacements, the first dropping
      every asterisk, the second every underscore. Every other character
      stays, as often as the answer holds it. */
  function Sanitize(s: string): (r: string)
    ensures '*' !in r && '_' !in r
    ensures forall c :: c in r <==> c in s && c != '*' && c != '_'
    ensures forall c :: multiset(r)[c] == if c == '*' || c == '_' then 0 else multiset(s)[c]
  {
    var once := Filter(s, NotAsterisk);
    assert forall c :: multiset(Filter(once, NotUnderscore))[c] == if c == '*' || c == '_' then 0 else multiset(s)[c] by {
      forall c ensures multiset(Filter(once, NotUnderscore))[c] == if c == '*' || c == '_' then 0 else multiset(s)[c] {
        FilterCounts(s, NotAsterisk, c);
        FilterCounts(once, NotUnderscore, c);
      }
    }
    Filter(once, NotUnderscore)
  }

  predicate NotAsterisk(c: char) { c != '*' }
  predicate NotUnderscore(c: char) { c != '_' }

  /** The characters the clean-up keeps. */
  predicate Kept(c: char) { c != '*' && c != '_' }

  /** The two passes are one filter: the answer keeps every other character,
      in order. */
  lemma SanitizeIsOneFilter(s: string)
    ensures Sanitize(s) == Filter(s, Kept)
    ensures IsSubsequence(Sanitize(s), s)
  {
    FilterTwice(s, NotAsterisk, NotUnderscore);
    FilterAgrees(s, x => NotAsterisk(x) && NotUnderscore(x), Kept);
  }

  /** Text without `*` and `_` is left as it is; in particular cleaning twice
      is cleaning once. */
  lemma SanitizeKeepsClean(s: string)
    requires '*' !in s && '_' !in s
    ensures Sanitize(s) == s
  {
    FilterKeepsAll(s, NotAsterisk);
    FilterKeepsAll(s, NotUnderscore);
  }

  lemma SanitizeIdempotent(s: string)
    ensures Sanitize(Sanitize(s)) == Sanitize(s)
  {
    SanitizeKeepsClean(Sanitize(s));
  }

  /** What the model request gives back: the first candidate's text, if the
      answer holds one, or a failed request. */
  datatype GeminiReply = Answer(candidateText: Option<string>) | RequestFailed

  const NoResponse: string := "No response received."
  const FetchError: string := "Error fetching response."

  /** The text the bot writes: the cleaned candidate text, or the fallback
      when it is missing or empty, or the error text when the request failed. */
  function BotText(reply: GeminiReply): (text: string)
    ensures reply.Answer? ==> '*' !in text && '_' !in text
    ensures reply.Answer? && Truthy(reply.candidateText) ==> text == Sanitize(reply.candidateText.value)
    ensures reply.Answer? && !Truthy(reply.candidateText) ==> text == NoResponse
    ensures reply.RequestFailed? ==> text == FetchError
  {
    match reply
    case Answer(t) =>
      SanitizeKeepsClean(NoResponse);
      Sanitize(if Truthy(t) then t.value else NoResponse)
    case RequestFailed => FetchError
  }

  // ---------------------------------------------------------------------------
  // The animation

  /** The text shown after the words `ws` have been written: each word
      followed by a space. */
  function ShownText(ws: seq<string>): string {
    if ws == [] then [] else ws[0] + " " + ShownText(ws[1..])
  }

  /** Writing one more word appends it and a space. */
  lemma {:induction false} ShownTextOneMore(ws: seq<string>, k: nat)
    requires k < |ws|
    ensures ShownText(ws[..k + 1]) == ShownText(ws[..k]) + ws[k] + " "
    decreases k
  {
    if k > 0 {
      ShownTextOneMore(ws[1..], k - 1);
      assert ws[..k + 1][1..] == ws[1..][..k];
      assert ws[..k][1..] == ws[1..][..k - 1];
    } else {
      assert ws[..1] == [ws[0]];
      assert ws[..1][1..] == [];
    }
  }

  /** Once every word is written, the text is the words joined by spaces,
      plus a trailing space. */
  lemma {:induction false} ShownTextOfAll(ws: seq<string>)
    requires |ws| >= 1
    ensures ShownText(ws) == JoinWith(ws, ' ') + " "
  {
    if |ws| > 1 {
      ShownTextOfAll(ws[1..]);
    } else {
      assert ws[1..] == [];
    }
  }

  /** The last message becomes the bot's text: a trailing bot message is
      overwritten, otherwise a new bot message is pushed. */
  function PutBot(msgs: seq<Message>, text: string): (r: seq<Message>)
    ensures |r| == |msgs| || |r| == |msgs| + 1
    ensures |r| == |msgs| + 1 <==> msgs == [] || msgs[|msgs| - 1].sender != Bot
    ensures r[|r| - 1] == Message(text, Bot)
    ensures forall i :: 0 <= i < |r| - 1 ==> r[i] == msgs[i]
  {
    if |msgs| > 0 && msgs[|msgs| - 1].sender == Bot then msgs[|msgs| - 1 := msgs[|msgs| - 1].(text := text)]
    else msgs + [Message(text, Bot)]
  }

  /** One run of the writing animation: the words of the answer, how many are
      written, the text written so far, and whether the interval still runs. */
  datatype Animation = Animation(words: seq<string>, index: nat, currentText: string, running: bool)

  /** The text written so far is exactly the first `index` words. */
  predicate AnimInv(a: Animation) {
    a.index <= |a.words| && a.currentText == ShownText(a.words[..a.index])
  }

  /** The state of the screen. */
  datatype ChatState = ChatState(messages: seq<Message>, inputText: string, loading: bool,
                                 autoScroll: bool, anim: Animation)

  function Initial(): (s: ChatState)
    ensures s.messages == DefaultMessages && !s.anim.running && AnimInv(s.anim)
  {
    ChatState(DefaultMessages, "", false, true, Animation([], 0, "", false))
  }

  /** `sendMessage` up to the request: a blank input changes nothing;
      otherwise the input is appended as a user message, cleared, and the
      screen waits for the answer. */
  function SubmitStep(s: ChatState): (r: ChatState)
    ensures Trim(s.inputText) == [] ==> r == s
    ensures Trim(s.inputText) != [] ==>
      && r.messages == s.messages + [Message(s.inputText, User)]
      && r.inputText == [] && r.loading
      && r.autoScroll == s.autoScroll && r.anim == s.anim
  {
    if Trim(s.inputText) == [] then s
    else s.(messages := s.messages + [Message(s.inputText, User)], inputText := "", loading := true)
  }

  /** `displayBotMessage(text)` as it starts: the text is split at spaces, a
      fresh animation starts from no words written, and auto-scroll is on. */
  function StartAnimation(s: ChatState, text: string): (r: ChatState)
    ensures r.anim == Animation(Split(text, ' '), 0, "", true) && AnimInv(r.anim)
    ensures r.autoScroll
    ensures r.messages == s.messages && r.inputText == s.inputText && r.loading == s.loading
  {
    s.(autoScroll := true, anim := Animation(Split(text, ' '), 0, "", true))
  }

  /** The rest of `sendMessage`: the bot text of the answer starts animating,
      and loading ends. */
  function ReplyStep(s: ChatState, reply: GeminiReply): ChatState {
    StartAnimation(s, BotText(reply)).(loading := false)
  }

  /** One tick of the interval: while words remain, write the next one into
      the last bot message; after the last one, stop and turn auto-scroll
      off. Nothing else changes, and earlier messages are never touched. */
  function AnimationStep(s: ChatState): (r: ChatState)
    ensures r.inputText == s.inputText && r.loading == s.loading && r.anim.words == s.anim.words
    ensures |s.messages| <= |r.messages| <= |s.messages| + 1
    ensures forall i :: 0 <= i < |s.messages| - 1 ==> r.messages[i] == s.messages[i]
    ensures !s.anim.running ==> r == s
    ensures AnimInv(s.anim) ==> AnimInv(r.anim)
    ensures s.anim.running && s.anim.index < |s.anim.words| ==>
      && r.anim == s.anim.(index := s.anim.index + 1, currentText := r.anim.currentText)
      && r.messages == PutBot(s.messages, r.anim.currentText)
      && r.autoScroll == s.autoScroll
    ensures s.anim.running && s.anim.index >= |s.anim.words| ==>
      r.anim == s.anim.(running := false) && !r.autoScroll && r.messages == s.messages
  {
    var a := s.anim;
    if !a.running then s
    else if a.index < |a.words| then
      var text := a.currentText + a.words[a.index] + " ";
      if AnimInv(a) then
        ShownTextOneMore(a.words, a.index);
        s.(messages := PutBot(s.messages, text), anim := a.(index := a.index + 1, currentText := text))
      else
        s.(messages := PutBot(s.messages, text), anim := a.(index := a.index + 1, currentText := text))
    else s.(autoScroll := false, anim := a.(running := false))
  }

  /** `n` ticks of the interval. */
  function Ticks(s: ChatState, n: nat): ChatState
    decreases n
  {
    if n == 0 then s else Ticks(AnimationStep(s), n - 1)
  }

  /** After `k` ticks, no more than the words there are, the first `k` words
      (from where the animation stood) are written, each followed by a
      space, and they are the text of the last message, which is a bot
      message. */
  lemma {:induction false} TicksWritePrefix(s: ChatState, k: nat)
    requires s.anim.running && AnimInv(s.anim) && s.anim.index + k <= |s.anim.words|
    ensures var r := Ticks(s, k);
      && r.anim == s.anim.(index := s.anim.index + k, currentText := ShownText(s.anim.words[..s.anim.index + k]))
      && r.autoScroll == s.autoScroll && r.inputText == s.inputText && r.loading == s.loading
      && (k > 0 ==> r.messages != [] && r.messages[|r.messages| - 1] == Message(r.anim.currentText, Bot))
    decreases k
  {
    if k > 0 {
      var t := AnimationStep(s);
      TicksWritePrefix(t, k - 1);
      if k - 1 == 0 {
        assert Ticks(t, 0) == t;
      }
    }
  }

  /** The animation writes exactly one word per tick: it is still running
      after as many ticks as there are words, and the next tick stops it and
      turns auto-scroll off. */
  lemma TicksStopAfterLastWord(s: ChatState)
    requires s.anim.running && AnimInv(s.anim) && s.anim.index == 0
    ensures Ticks(s, |s.anim.words|).anim.running
    ensures var r := Ticks(s, |s.anim.words| + 1); !r.anim.running && !r.autoScroll
  {
    var n := |s.anim.words|;
    TicksWritePrefix(s, n);
    TicksSplit(s, n, 1);
  }

  lemma {:induction false} TicksSplit(s: ChatState, m: nat, n: nat)
    ensures Ticks(s, m + n) == Ticks(Ticks(s, m), n)
    decreases m
  {
    if m > 0 {
      TicksSplit(AnimationStep(s), m - 1, n);
    }
  }

  /** Once the animation of `text` has run to its end, the last message is
      the bot's, holding the whole text followed by a space; the interval has
      stopped and auto-scroll is off. */
  lemma AnimationWritesWholeText(s: ChatState, text: string)
    ensures var t := StartAnimation(s, text);
      var r := Ticks(t, |t.anim.words| + 1);
      && !r.anim.running && !r.autoScroll
      && r.messages != [] && r.messages[|r.messages| - 1] == Message(text + " ", Bot)
  {
    var t := StartAnimation(s, text);
    var ws := t.anim.words;
    var n := |ws|;
    TicksWritePrefix(t, n);
    assert ws[..n] == ws;
    ShownTextOfAll(ws);
    TicksSplit(t, n, 1);
  }

  // ---------------------------------------------------------------------------
  // The screen object

  class ChatScreen {
    var messages: seq<Message>
    var inputText: string
    var loading: bool
    var autoScrollEnabled: bool
    var words: seq<string>
    var index: nat
    var currentText: string
    var running: bool

    ghost function State(): ChatState
      reads this
    {
      ChatState(messages, inputText, loading, autoScrollEnabled, Animation(words, index, currentText, running))
    }

    constructor()
      ensures State() == Initial()
    {
      messages := DefaultMessages;
      inputText := "";
      loading := false;
      autoScrollEnabled := true;
      words := [];
      index := 0;
      currentText := "";
      running := false;
    }

    /** Typing into the input box. */
    method EditInput(text: string)
      modifies this
      ensures State() == old(State()).(inputText := text)
    {
      inputText := text;
    }

    /** The send button: the question posted to the model (`None` for a blank
      input, when nothing is sent). */
    method SendMessage() returns (prompt: Option<string>)
      modifies this
      ensures State() == SubmitStep(old(State()))
      ensures prompt.None? <==> Trim(old(inputText)) == []
      ensures prompt.Some? ==> prompt.value == old(inputText)
    {
      if Trim(inputText) == [] {
        return None;
      }
      loading := true;
      messages := messages + [Message(inputText, User)];
      prompt := Some(inputText);
      inputText := "";
    }

    /** The model's answer (or the failure) arrives: its bot text starts
      animating, and loading ends. */
    method ReceiveReply(reply: GeminiReply)
      modifies this
      ensures State() == ReplyStep(old(State()), reply)
    {
      DisplayBotMessage(BotText(reply));
      loading := false;
    }

    /** `displayBotMessage`: the interval's state starts afresh. */
    method DisplayBotMessage(text: string)
      modifies this
      ensures State() == StartAnimation(old(State()), text)
    {
      words := Split(text, ' ');
      currentText := "";
      index := 0;
      autoScrollEnabled := true;
      running := true;
    }

    /** One tick of the animation interval. */
    method Tick()
      modifies this
      ensures State() == AnimationStep(old(State()))
    {
      if !running {
        return;
      }
      if index < |words| {
        currentText := currentText + words[index] + " ";
        if |messages| > 0 && messages[|messages| - 1].sender == Bot {
          messages := messages[|messages| - 1 := messages[|messages| - 1].(text := currentText)];
        } else {
          messages := messages + [Message(currentText, Bot)];
        }
        index := index + 1;
      } else {
        running := false;
        autoScrollEnabled := false;
      }
    }
  }
}

=== FILE: compiler.dfy ===
/** The code runner screen: a language picker with a starter program per
    language, a stdin box shown only when the program reads input, and the
    submission to a remote judge whose answer is shown as output. */
module Compiler {
  import opened Wrappers
  import opened Text

  /** A picker entry: the name shown and the judge's language id. */
  datatype LanguageOption = LanguageOption(name: string, value: string)

  const Languages: seq<LanguageOption> := [
    LanguageOption("Python", "71"),
    LanguageOption("C++", "54"),
    LanguageOption("Java", "62"),
    LanguageOption("C", "50"),
    LanguageOption("JavaScript", "63"),
    LanguageOption("Rust", "73"),
    LanguageOption("Ruby", "72"),
    LanguageOption("Go", "60"),
    LanguageOption("PHP", "68")]

  // ---------------------------------------------------------------------------
  // Starter programs, line by line

  const PythonLines: seq<string> := [
    "# Python Code",
    "def greet(name):",
    "    return f\"Hello, {name}!\"",
    "",
    "print(greet(\"World\"))"]

  /** The line that reads input is written around its `cin >>` call. */
  const CppLines: seq<string> := [
    "// C++ Code",
    "#include <iostream>",
    "using namespace std;",
    "int main() {",
    "    string name;",
    "    cout << \"Enter your name: \";",
    "    " + "cin >>" + " name;",
    "    cout << \"Hello, \" << name << \"!\" << endl;",
    "    return 0;",
    "}"]

  /** The line that reads input is written around its `Scanner` import. */
  const JavaLines: seq<string> := [
    "// Java Code",
    "import java.util." + "Scanner" + ";",
    "public class Main {",
    "    public static void main(String[] args) {",
    "        Scanner sc = new Scanner(System.in);",
    "        System.out.print(\"Enter your name: \");",
    "        String name = sc.nextLine();",
    "        System.out.println(\"Hello, \" + name + \"!\");",
    "    }",
    "}"]

  /** The C program's format string holds a backslash followed by `n`. The
      line that reads input is written around its `scanf(` call. */
  const CLines: seq<string> := [
    "// C Code",
    "#include <stdio.h>",
    "int main() {",
    "    char name[50];",
    "    printf(\"Enter your name: \");",
    "    " + "scanf(" + "\"%s\", name);",
    "    printf(\"Hello, %s!\\n\", name);",
    "    return 0;",
    "}"]

  const JavaScriptLines: seq<string> := [
    "// JavaScript Code",
    "function greet(name) {",
    "    return \"Hello, \" + name + \"!\";",
    "}",
    "console.log(greet(\"World\"));"]

  /** The line that reads input is written around its `read_line` call. */
  const RustLines: seq<string> := [
    "// Rust Code",
    "use std::io;",
    "fn main() {",
    "    let mut name = String::new();",
    "    println!(\"Enter your name: \");",
    "    io::stdin()." + "read_line" + "(&mut name).expect(\"Failed to read input\");",
    "    println!(\"Hello, {}!\", name.trim());",
    "}"]

  const RubyLines: seq<string> := [
    "# Ruby Code",
    "def greet(name)",
    "  return \"Hello, #{name}!\"",
    "end",
    "",
    "puts greet(\"World\")"]

  /** The line that reads input is written around its `Scanln` call. */
  const GoLines: seq<string> := [
    "// Go Code",
    "package main",
    "import \"fmt\"",
    "func main() {",
    "    var name string",
    "    fmt.Print(\"Enter your name: \")",
    "    fmt." + "Scanln" + "(&name)",
    "    fmt.Println(\"Hello,\", name)",
    "}"]

  const PhpLines: seq<string> := [
    "<?php",
    "// PHP Code",
    "function greet($name) {",
    "    return \"Hello, \" . $name . \"!\";",
    "}",
    "echo greet(\"World\");",
    "?>"]

  /** A program text: its lines joined by newlines. */
  function Program(lines: seq<string>): string {
    JoinWith(lines, '\n')
  }

  /** The starter program of each language id, line by line. */
  const DefaultCodeLines: map<string, seq<string>> := map[
    "71" := PythonLines,
    "54" := CppLines,
    "62" := JavaLines,
    "50" := CLines,
    "63" := JavaScriptLines,
    "73" := RustLines,
    "72" := RubyLines,
    "60" := GoLines,
    "68" := PhpLines]

  /** The starter program of a language id. */
  function DefaultCode(language: string): (code: string)
    requires language in DefaultCodeLines
    ensures code == Program(DefaultCodeLines[language])
  {
    Program(DefaultCodeLines[language])
  }

  /** Every language of the picker has a starter program. */
  lemma EveryLanguageHasSnippet()
    ensures forall i :: 0 <= i < |Languages| ==> Languages[i].value in DefaultCodeLines
  {
  }

  // ---------------------------------------------------------------------------
  // Input detection

  /** The input calls looked for, per language id: none of them empty, and
      some for exactly the languages of the picker. */
  function InputMarkers(language: string): (markers: seq<string>)
    ensures markers != [] <==> language in DefaultCodeLines
    ensures forall m :: m in markers ==> m != []
  {
    match language
    case "71" => ["input("]
    case "54" => ["cin >>"]
    case "62" => ["Scanner"]
    case "50" => ["scanf("]
    case "63" => ["prompt("]
    case "73" => ["read_line"]
    case "72" => ["gets"]
    case "60" => ["Scanln"]
    case "68" => ["fgets", "readline"]
    case _ => []
  }

  /** `codeRequiresInput`: whether the program contains one of its language's
      input calls (for PHP either of two). Never for an unknown language, and
      never for an empty program, since no input call is empty. */
  function CodeRequiresInput(language: string, code: string): (needs: bool)
    ensures language !in DefaultCodeLines ==> !needs
    ensures code == [] ==> !needs
  {
    ContainsAny(code, InputMarkers(language))
  }

  /** A program needs input exactly when it contains one of its language's
      input calls, whatever the program. */
  lemma CodeRequiresInputIff(language: string, code: string)
    ensures CodeRequiresInput(language, code) <==>
      exists m :: m in InputMarkers(language) && Contains(code, m)
  {
    ContainsAnyIff(code, InputMarkers(language));
  }

  /** `ContainsAny` holds exactly when some marker occurs in the code. */
  lemma {:induction false} ContainsAnyIff(code: string, markers: seq<string>)
    ensures ContainsAny(code, markers) <==> exists m :: m in markers && Contains(code, m)
    decreases |markers|
  {
    if markers != [] {
      ContainsAnyIff(code, markers[1..]);
      assert forall m :: m in markers <==> m == markers[0] || m in markers[1..];
    }
  }

  /** Whether `code` contains one of `markers`; an empty code contains none
      of them unless one is empty. */
  function ContainsAny(code: string, markers: seq<string>): (r: bool)
    ensures code == [] && r ==> [] in markers
  {
    if markers == [] then false
    else Contains(code, markers[0]) || ContainsAny(code, markers[1..])
  }

  /** The stdin box of a starter program: shown for C++, Java, C, Rust and
      Go, whose programs read a name, and hidden for Python, JavaScript, Ruby
      and PHP, whose programs do not. */
  lemma StarterProgramInput(language: string)
    requires language in DefaultCodeLines
    ensures CodeRequiresInput(language, DefaultCode(language)) <==> language in {"54", "62", "50", "73", "60"}
  {
    if language == "54" {
      CppReadsInput();
    } else if language == "62" {
      JavaReadsInput();
    } else if language == "50" {
      CReadsInput();
    } else if language == "73" {
      RustReadsInput();
    } else if language == "60" {
      GoReadsInput();
    } else if language == "71" {
      PythonReadsNoInput();
    } else if language == "63" {
      JavaScriptReadsNoInput();
    } else if language == "72" {
      RubyReadsNoInput();
    } else {
      PhpReadsNoInput();
    }
  }

  lemma CppReadsInput()
    ensures CodeRequiresInput("54", DefaultCode("54"))
  {
    HasAtMiddle("    ", "cin >>", " name;");
    LineReadsInput(CppLines, 6, "cin >>", 4);
  }

  lemma JavaReadsInput()
    ensures CodeRequiresInput("62", DefaultCode("62"))
  {
    HasAtMiddle("import java.util.", "Scanner", ";");
    LineReadsInput(JavaLines, 1, "Scanner", 17);
  }

  lemma CReadsInput()
    ensures CodeRequiresInput("50", DefaultCode("50"))
  {
    HasAtMiddle("    ", "scanf(", "\"%s\", name);");
    LineReadsInput(CLines, 5, "scanf(", 4);
  }

  lemma RustReadsInput()
    ensures CodeRequiresInput("73", DefaultCode("73"))
  {
    HasAtMiddle("    io::stdin().", "read_line", "(&mut name).expect(\"Failed to read input\");");
    LineReadsInput(RustLines, 5, "read_line", 16);
  }

  lemma GoReadsInput()
    ensures CodeRequiresInput("60", DefaultCode("60"))
  {
    HasAtMiddle("    fmt.", "Scanln", "(&name)");
    LineReadsInput(GoLines, 6, "Scanln", 8);
  }

  lemma PythonReadsNoInput()
    ensures !CodeRequiresInput("71", DefaultCode("71"))
  {
    NoPythonInput();
  }

  lemma JavaScriptReadsNoInput()
    ensures !CodeRequiresInput("63", DefaultCode("63"))
  {
    NoJavaScriptInput();
  }

  lemma RubyReadsNoInput()
    ensures !CodeRequiresInput("72", DefaultCode("72"))
  {
    NoRubyInput();
  }

  lemma PhpReadsNoInput()
    ensures !CodeRequiresInput("68", DefaultCode("68"))
  {
    var code := Program(PhpLines);
    NoPhpFgets();
    NoPhpReadline();
    assert !ContainsAny(code, ["readline"]);
    assert ["fgets", "readline"][1..] == ["readline"];
    assert !ContainsAny(code, ["fgets", "readline"]);
  }

  // An input call at column `i` of line `k` is in the program.
  lemma LineReadsInput(lines: seq<string>, k: nat, p: string, i: nat)
    requires k < |lines| && HasAt(lines[k], p, i)
    ensures Contains(Program(lines), p)
  {
    ContainsAt(lines[k], p, i);
    ContainsInJoin(lines, '\n', k, p);
  }

  /** The only `i` of the Python program is the one of `print(`. */
  lemma PythonLinesLackI()
    ensures forall k :: 0 <= k < |PythonLines| && k != 4 ==> 'i' !in PythonLines[k]
    ensures 'i' !in PythonLines[4][..2] && 'i' !in PythonLines[4][3..]
  {
  }

  lemma NoPythonInput()
    ensures !Contains(Program(PythonLines), "input(")
  {
    PythonLinesLackI();
    forall k | 0 <= k < |PythonLines| ensures !Contains(PythonLines[k], "input(") {
      if k == 4 {
        assert PythonLines[4][4] == 't';
        NotContainsByUniqueChar(PythonLines[4], "input(", 0, 2);
      } else {
        NotContainsByMissingChar(PythonLines[k], "input(", 0);
      }
    }
    NotContainsInJoin(PythonLines, '\n', "input(");
  }

  /** The only `p` of the JavaScript program is the one of `JavaScript`. */
  lemma JavaScriptLinesLackP()
    ensures forall k :: 0 <= k < |JavaScriptLines| && k != 0 ==> 'p' !in JavaScriptLines[k]
    ensures 'p' !in JavaScriptLines[0][..11] && 'p' !in JavaScriptLines[0][12..]
  {
  }

  lemma NoJavaScriptInput()
    ensures !Contains(Program(JavaScriptLines), "prompt(")
  {
    JavaScriptLinesLackP();
    forall k | 0 <= k < |JavaScriptLines| ensures !Contains(JavaScriptLines[k], "prompt(") {
      if k == 0 {
        assert JavaScriptLines[0][12] == 't';
        NotContainsByUniqueChar(JavaScriptLines[0], "prompt(", 0, 11);
      } else {
        NotContainsByMissingChar(JavaScriptLines[k], "prompt(", 0);
      }
    }
    NotContainsInJoin(JavaScriptLines, '\n', "prompt(");
  }

  /** The only `s` of the Ruby program ends `puts`. */
  lemma RubyLinesLackS()
    ensures forall k :: 0 <= k < |RubyLines| && k != 5 ==> 's' !in RubyLines[k]
    ensures 's' !in RubyLines[5][..3] && 's' !in RubyLines[5][4..]
  {
  }

  lemma NoRubyInput()
    ensures !Contains(Program(RubyLines), "gets")
  {
    RubyLinesLackS();
    forall k | 0 <= k < |RubyLines| ensures !Contains(RubyLines[k], "gets") {
      if k == 5 {
        assert RubyLines[5][0] == 'p';
        NotContainsByUniqueChar(RubyLines[5], "gets", 3, 3);
      } else {
        NotContainsByMissingChar(RubyLines[k], "gets", 3);
      }
    }
    NotContainsInJoin(RubyLines, '\n', "gets");
  }

  /** The PHP program has no `s`. */
  lemma PhpLinesLackS()
    ensures forall k :: 0 <= k < |PhpLines| ==> 's' !in PhpLines[k]
  {
  }

  lemma NoPhpFgets()
    ensures !Contains(Program(PhpLines), "fgets")
  {
    PhpLinesLackS();
    forall k | 0 <= k < |PhpLines| ensures !Contains(PhpLines[k], "fgets") {
      NotContainsByMissingChar(PhpLines[k], "fgets", 4);
    }
    NotContainsInJoin(PhpLines, '\n', "fgets");
  }

  /** The only `i` of the PHP program is the one of `function`. */
  lemma PhpLinesLackI()
    ensures forall k :: 0 <= k < |PhpLines| && k != 2 ==> 'i' !in PhpLines[k]
    ensures 'i' !in PhpLines[2][..5] && 'i' !in PhpLines[2][6..]
  {
  }

  lemma NoPhpReadline()
    ensures !Contains(Program(PhpLines), "readline")
  {
    PhpLinesLackI();
    forall k | 0 <= k < |PhpLines| ensures !Contains(PhpLines[k], "readline") {
      if k == 2 {
        assert PhpLines[2][0] == 'f';
        NotContainsByUniqueChar(PhpLines[2], "readline", 5, 5);
      } else {
        NotContainsByMissingChar(PhpLines[k], "readline", 5);
      }
    }
    NotContainsInJoin(PhpLines, '\n', "readline");
  }

  // ---------------------------------------------------------------------------
  // Submission and output

  /** The fields of the judge's answer that the screen reads. */
  datatype JudgeResponse = JudgeResponse(stdout: Option<string>, compileOutput: Option<string>, stderr: Option<string>)

  /** What is sent to the judge. `languageId` is `parseInt(language)`. */
  datatype Submission = Submission(sourceCode: string, languageId: Option<int>, stdin: string)

  /** The stdin sent: the typed input when the input box is shown, nothing
      otherwise. */
  function Stdin(showInputField: bool, userInput: string): (stdin: string)
    ensures stdin == [] || stdin == userInput
    ensures showInputField ==> stdin == userInput
    ensures !showInputField ==> stdin == []
  {
    if showInputField then userInput else ""
  }

  /** `stdout || compile_output || stderr || 'No output'`: the first field
      that is present and non-empty; never an empty text. */
  function OutputText(r: JudgeResponse): (text: string)
    ensures text != []
    ensures Truthy(r.stdout) ==> text == r.stdout.value
    ensures !Truthy(r.stdout) && Truthy(r.compileOutput) ==> text == r.compileOutput.value
    ensures !Truthy(r.stdout) && !Truthy(r.compileOutput) && Truthy(r.stderr) ==> text == r.stderr.value
    ensures !Truthy(r.stdout) && !Truthy(r.compileOutput) && !Truthy(r.stderr) ==> text == "No output"
  {
    if Truthy(r.stdout) then r.stdout.value
    else if Truthy(r.compileOutput) then r.compileOutput.value
    else if Truthy(r.stderr) then r.stderr.value
    else "No output"
  }

  const CompileError: string := "Error compiling code. Please check your internet connection."

  /** The screen's state. */
  class CompilerScreen {
    var language: string
    var code: string
    var userInput: string
    var output: string
    var loading: bool

    /** Python selected with its starter program; everything else empty. */
    constructor()
      ensures language == Languages[0].value && code == DefaultCode(Languages[0].value)
      ensures userInput == [] && output == [] && !loading
    {
      language := "71";
      code := Program(PythonLines);
      userInput := "";
      output := "";
      loading := false;
    }

    /** Whether the stdin box is shown. */
    function ShowInputField(): bool
      reads this
    {
      CodeRequiresInput(language, code)
    }

    /** Picking a language loads its starter program and clears the input and
      the output. */
    method HandleLanguageChange(selected: string)
      requires selected in DefaultCodeLines
      modifies this
      ensures language == selected && code == DefaultCode(selected)
      ensures userInput == [] && output == [] && loading == old(loading)
    {
      language := selected;
      code := DefaultCode(selected);
      userInput := "";
      output := "";
    }

    /** Editing the program. */
    method EditCode(text: string)
      modifies this
      ensures code == text
      ensures language == old(language) && userInput == old(userInput)
      ensures output == old(output) && loading == old(loading)
    {
      code := text;
    }

    /** Typing into the stdin box. */
    method EditInput(text: string)
      modifies this
      ensures userInput == text
      ensures language == old(language) && code == old(code)
      ensures output == old(output) && loading == old(loading)
    {
      userInput := text;
    }

    /** "Run": the submission built from the screen (stdin only when the box is
      shown), and the output shown for the judge's answer, or the connection
      message when no answer came back (`None`). Loading ends either way. */
    method HandleCompile(response: Option<JudgeResponse>) returns (sent: Submission)
      modifies this
      ensures sent == Submission(code, ParseInt(language), Stdin(ShowInputField(), userInput))
      ensures response.Some? ==> output == OutputText(response.value)
      ensures response.None? ==> output == CompileError
      ensures !loading
      ensures language == old(language) && code == old(code) && userInput == old(userInput)
    {
      loading := true;
      output := "";
      sent := Submission(code, ParseInt(language), Stdin(ShowInputField(), userInput));
      if response.Some? {
        output := OutputText(response.value);
      } else {
        output := CompileError;
      }
      loading := false;
    }
  }

  /** After picking a language the stdin box is shown exactly for the
      languages whose starter program reads input. */
  method PickLanguageShowsInput(screen: CompilerScreen, selected: string)
    requires selected in DefaultCodeLines
    modifies screen
    ensures screen.ShowInputField() <==> selected in {"54", "62", "50", "73", "60"}
  {
    screen.HandleLanguageChange(selected);
    StarterProgramInput(selected);
  }
}

=== FILE: course_detail.dfy ===
/** The course detail screen: the learner's stored copy of the course, and the
    gate that opens a chapter only after the one before it is completed. */
module CourseDetail {
  import opened Wrappers
  import opened Text
  import opened Courses

  /** What pressing a chapter does: an "Access Denied" alert, or navigation to
      the chapter screen with the chapter and the stored course. */
  datatype PressOutcome = AccessDenied | OpenChapter(chapter: Chapter, course: Course)

  /** The gate: the first chapter is always open, any later one only when the
      chapter before it is completed. */
  predicate ChapterUnlocked(chapters: seq<Chapter>, index: nat)
    requires index < |chapters|
  {
    index == 0 || chapters[index - 1].completed
  }

  /** A press on chapter `index` of the stored course's list. An allowed press
      hands over that chapter and the stored course (not the course the screen
      was opened with); a denied one goes nowhere. */
  function HandleChapterPress(stored: Course, index: nat): (r: PressOutcome)
    requires index < |stored.chapters|
    ensures index == 0 ==> r.OpenChapter?
    ensures index > 0 ==> (r.OpenChapter? <==> stored.chapters[index - 1].completed)
    ensures r.OpenChapter? ==> r.chapter == stored.chapters[index] && r.course == stored
  {
    if ChapterUnlocked(stored.chapters, index) then OpenChapter(stored.chapters[index], stored)
    else AccessDenied
  }

  /** Completion forms a prefix of the chapter list: a completed chapter has
      only completed chapters before it. */
  ghost predicate PrefixCompleted(chapters: seq<Chapter>) {
    forall j, k :: 0 <= j < k < |chapters| && chapters[k].completed ==> chapters[j].completed
  }

  /** When completion forms a prefix, a chapter is open exactly when every
      chapter before it is completed. */
  lemma UnlockedIffAllBeforeCompleted(chapters: seq<Chapter>, index: nat)
    requires PrefixCompleted(chapters) && index < |chapters|
    ensures ChapterUnlocked(chapters, index) <==> forall j :: 0 <= j < index ==> chapters[j].completed
  {
    if ChapterUnlocked(chapters, index) && index > 0 {
      forall j | 0 <= j < index ensures chapters[j].completed {
        if j < index - 1 {
          assert chapters[index - 1].completed;
        }
      }
    }
  }

  /** The icon of a chapter row. */
  function CompletionIcon(chapter: Chapter): (icon: string)
    ensures icon == "checkmark-circle" <==> chapter.completed
    ensures icon == "play" <==> !chapter.completed
  {
    if chapter.completed then "checkmark-circle" else "play"
  }

  /** The learner's copy of `course`: the enrolment record when one exists,
      the course itself otherwise. */
  function StoredCourse(course: Course, uid: string, store: EnrolledStore): (c: Course)
    ensures DocKey(uid, course.courseTitle) in store ==> c == store[DocKey(uid, course.courseTitle)].course
    ensures DocKey(uid, course.courseTitle) !in store ==> c == course
  {
    var key := DocKey(uid, course.courseTitle);
    if key in store then store[key].course else course
  }

  /** The screen's state: the stored course (absent until loaded, and still
      absent after a failed read) and the loading flag. */
  class CourseDetailScreen {
    var storedCourse: Option<Course>
    var loading: bool

    constructor()
      ensures storedCourse.None? && loading
    {
      storedCourse := None;
      loading := true;
    }

    /** The chapters the screen lists: none until a stored course exists. */
    function ShownChapters(): (chapters: seq<Chapter>)
      reads this
      ensures storedCourse.Some? ==> chapters == storedCourse.value.chapters
      ensures storedCourse.None? ==> chapters == []
    {
      if storedCourse.Some? then storedCourse.value.chapters else []
    }

    /** The progress load run on mount, once the course parameter parsed and a
      user is signed in: a successful read stores the enrolment record or, when
      there is none, the course; a failed read stores nothing. Either way
      loading ends. Without a course or a user nothing happens. */
    method LoadProgress(course: Option<Course>, userId: Option<string>, store: EnrolledStore, readOk: bool)
      modifies this
      ensures course.None? || !Truthy(userId) ==> storedCourse == old(storedCourse) && loading == old(loading)
      ensures course.Some? && Truthy(userId) ==> !loading
      ensures course.Some? && Truthy(userId) && readOk ==>
        storedCourse == Some(StoredCourse(course.value, userId.value, store))
      ensures course.Some? && Truthy(userId) && !readOk ==> storedCourse == old(storedCourse)
    {
      if course.None? || !Truthy(userId) {
        return;
      }
      if readOk {
        storedCourse := Some(StoredCourse(course.value, userId.value, store));
      }
      loading := false;
    }

    /** A press on a listed chapter; the screen's state is left as it is. */
    method PressChapter(index: nat) returns (r: PressOutcome)
      requires index < |ShownChapters()|
      ensures storedCourse.Some?
      ensures r == HandleChapterPress(storedCourse.value, index)
    {
      r := HandleChapterPress(storedCourse.value, index);
    }
  }
}

=== FILE: course_list.dfy ===
/** The home screen's course list: one horizontal section per category, and
    the course cards inside them. */
module CourseList {
  import opened Wrappers
  import opened Text
  import opened Lists
  import opened Courses

  /** The sections, in order. */
  const Categories: seq<string> := ["popular", "coding", "development", "database", "new Tech"]

  /** `getCoursesByCategory(cat)`: the courses of type "popular" for the
      popular section, otherwise the courses whose category is exactly `cat`
      (case matters), in their original order. */
  function CoursesByCategory(courses: seq<Course>, cat: string): (r: seq<Course>)
    ensures IsSubsequence(r, courses)
    ensures cat == "popular" ==> forall c :: c in r <==> c in courses && c.courseType == Some("popular")
    ensures cat != "popular" ==> forall c :: c in r <==> c in courses && c.category == Some(cat)
  {
    if cat == "popular" then Filter(courses, (c: Course) => c.courseType == Some("popular"))
    else Filter(courses, (c: Course) => c.category == Some(cat))
  }

  /** A rendered section: its heading and its courses. */
  datatype Section = Section(title: string, courses: seq<Course>)

  /** `renderCourseSection(cat)`: no section for an empty category, otherwise
      the heading and the category's courses. */
  function RenderSection(courses: seq<Course>, cat: string): (r: Option<Section>)
    ensures r.None? <==> CoursesByCategory(courses, cat) == []
    ensures r.Some? ==> r.value.title == SectionTitle(cat) && r.value.courses == CoursesByCategory(courses, cat)
  {
    var cs := CoursesByCategory(courses, cat);
    if cs == [] then None else Some(Section(SectionTitle(cat), cs))
  }

  /** All sections of the list, empty ones left out. */
  function RenderSections(courses: seq<Course>, cats: seq<string>): (r: seq<Section>)
    ensures |r| <= |cats|
    ensures forall i :: 0 <= i < |r| ==> r[i].courses != []
    ensures forall s :: s in r ==> exists cat :: cat in cats && RenderSection(courses, cat) == Some(s)
  {
    if cats == [] then []
    else
      var rest := RenderSections(courses, cats[1..]);
      match RenderSection(courses, cats[0])
      case None => rest
      case Some(s) => [s] + rest
  }

  /** The home list's section test: the popular section by type, any other
      section by exact category. */
  predicate InSection(c: Course, cat: string) {
    if cat == "popular" then c.courseType == Some("popular") else c.category == Some(cat)
  }

  /** The course is on some card of the sections. */
  predicate ShownIn(c: Course, sections: seq<Section>) {
    exists s :: s in sections && c in s.courses
  }

  /** Some section name takes the course. */
  predicate SectionedIn(c: Course, cats: seq<string>) {
    exists cat :: cat in cats && InSection(c, cat)
  }

  /** The first section name shows the course exactly when it takes it. */
  lemma ShownInFirstOrRest(courses: seq<Course>, cats: seq<string>, c: Course)
    requires c in courses && cats != []
    ensures ShownIn(c, RenderSections(courses, cats)) <==>
      InSection(c, cats[0]) || ShownIn(c, RenderSections(courses, cats[1..]))
  {
    var cat := cats[0];
    var rest := RenderSections(courses, cats[1..]);
    var all := RenderSections(courses, cats);
    assert all == if RenderSection(courses, cat).Some? then [RenderSection(courses, cat).value] + rest else rest;
    assert InSection(c, cat) <==> c in CoursesByCategory(courses, cat);
    if ShownIn(c, all) && !ShownIn(c, rest) {
      var s :| s in all && c in s.courses;
      assert RenderSection(courses, cat) == Some(s);
    }
    if InSection(c, cat) {
      assert RenderSection(courses, cat).value in all;
    }
    if ShownIn(c, rest) {
      var s :| s in rest && c in s.courses;
      assert s in all;
    }
  }

  /** Some section name takes the course exactly when the first one or one
      of the others does. */
  lemma SectionedInFirstOrRest(cats: seq<string>, c: Course)
    requires cats != []
    ensures SectionedIn(c, cats) <==> InSection(c, cats[0]) || SectionedIn(c, cats[1..])
  {
    if SectionedIn(c, cats) && !InSection(c, cats[0]) {
      var x :| x in cats && InSection(c, x);
      assert x in cats[1..];
    }
    if SectionedIn(c, cats[1..]) {
      var x :| x in cats[1..] && InSection(c, x);
      assert x in cats;
    }
  }

  /** A course is on the home screen exactly when it is popular or its
      category is one of the section names, spelled exactly. */
  lemma {:induction false} CourseShownIffSectioned(courses: seq<Course>, cats: seq<string>, c: Course)
    requires c in courses
    ensures ShownIn(c, RenderSections(courses, cats)) <==> SectionedIn(c, cats)
    decreases |cats|
  {
    if cats != [] {
      CourseShownIffSectioned(courses, cats[1..], c);
      ShownInFirstOrRest(courses, cats, c);
      SectionedInFirstOrRest(cats, c);
    }
  }

  /** The fields of a course card. */
  datatype Card = Card(title: string, lectures: string, banner: string)

  /** The card of a course: the title or 'No Title Available', the chapter
      count or 0, and the banner of the trimmed, lower-cased image name, the
      default banner for an absent or unknown one. */
  function CourseCard(c: Course): (card: Card)
    ensures card.title == CardTitle(c)
    ensures card.lectures == (if Truthy(c.noOfChapter) then c.noOfChapter.value else "0")
    ensures var k := PlainImageKey(c.image);
      card.banner == (if k in BannerImages then BannerImages[k] else BannerImages["default"])
    ensures card.banner in BannerImages.Values
    ensures !Truthy(c.image) ==> card.banner == BannerImages["default"]
  {
    var lectures := if Truthy(c.noOfChapter) then c.noOfChapter.value else "0";
    Card(CardTitle(c), lectures, AssetFor(BannerImages, PlainImageKey(c.image)))
  }
}

=== FILE: course_view.dfy ===
/** The course overview screen: enrolment in a course, the main button, the
    chapter list toggle and the banner choice. */
module CourseView {
  import opened Wrappers
  import opened Text
  import opened Courses

  /** The record an enrolment writes for signed-in user `uid`: the course with
      every field copied, plus the enrolment time, at the course's path; every
      other record stays as it was. */
  function Enroll(store: EnrolledStore, uid: string, course: Course, now: string): (r: EnrolledStore)
    ensures r.Keys == store.Keys + {DocKey(uid, course.courseTitle)}
    ensures r[DocKey(uid, course.courseTitle)].course == course
    ensures r[DocKey(uid, course.courseTitle)].enrolledAt == now
    ensures forall k :: k in store && k != DocKey(uid, course.courseTitle) ==> r[k] == store[k]
  {
    store[DocKey(uid, course.courseTitle) := EnrolledDoc(course, now)]
  }

  /** The main button: a spinner while loading (`None`), otherwise "Start
      Learning" exactly when enrolled and "Enroll Now" otherwise. */
  function ButtonLabel(isLoading: bool, isEnrolled: bool): (caption: Option<string>)
    ensures caption.None? <==> isLoading
    ensures caption == Some("Start Learning") <==> !isLoading && isEnrolled
    ensures caption == Some("Enroll Now") <==> !isLoading && !isEnrolled
  {
    if isLoading then None
    else if isEnrolled then Some("Start Learning") else Some("Enroll Now")
  }

  /** The text of the chapter list toggle. */
  function ToggleText(isChaptersVisible: bool): (text: string)
    ensures text == "Hide Chapters" <==> isChaptersVisible
    ensures text == "View Chapters" <==> !isChaptersVisible
  {
    if isChaptersVisible then "Hide Chapters" else "View Chapters"
  }

  /** The screen's three flags. The methods take the signed-in user's id as
      `user` (`None` when nobody is signed in). */
  class CourseViewScreen {
    var isLoading: bool
    var isEnrolled: bool
    var isChaptersVisible: bool

    constructor()
      ensures !isLoading && !isEnrolled && !isChaptersVisible
    {
      isLoading := false;
      isEnrolled := false;
      isChaptersVisible := false;
    }

    /** The enrolment check on mount: a record found at the course's path marks
      the course enrolled; nothing else changes, and nothing happens without a
      user or a course. */
    method CheckEnrollment(user: Option<string>, course: Option<Course>, store: EnrolledStore)
      modifies this
      ensures isEnrolled == (old(isEnrolled)
        || (user.Some? && course.Some? && DocKey(user.value, course.value.courseTitle) in store))
      ensures isLoading == old(isLoading) && isChaptersVisible == old(isChaptersVisible)
    {
      if user.None? || course.None? {
        return;
      }
      if DocKey(user.value, course.value.courseTitle) in store {
        isEnrolled := true;
      }
    }

    /** "Enroll Now": write the enrolment record; the course counts as
      enrolled only once the write succeeds, and loading ends either way.
      Without a user or a course nothing happens. */
    method EnrollCourse(user: Option<string>, course: Option<Course>, now: string,
                        store: EnrolledStore, writeOk: bool)
      returns (newStore: EnrolledStore)
      modifies this
      ensures user.None? || course.None? ==>
        newStore == store && isLoading == old(isLoading) && isEnrolled == old(isEnrolled)
      ensures user.Some? && course.Some? ==>
        && newStore == (if writeOk then Enroll(store, user.value, course.value, now) else store)
        && isEnrolled == (old(isEnrolled) || writeOk)
        && !isLoading
      ensures isChaptersVisible == old(isChaptersVisible)
    {
      newStore := store;
      if user.None? || course.None? {
        return;
      }
      isLoading := true;
      if writeOk {
        newStore := Enroll(store, user.value, course.value, now);
        isEnrolled := true;
      }
      isLoading := false;
    }

    /** Show or hide the chapter list. */
    method ToggleChaptersList()
      modifies this
      ensures isChaptersVisible == !old(isChaptersVisible)
      ensures isLoading == old(isLoading) && isEnrolled == old(isEnrolled)
    {
      isChaptersVisible := !isChaptersVisible;
    }
  }

  /** Toggling the chapter list twice restores it. */
  method ToggleTwiceRestores(screen: CourseViewScreen)
    modifies screen
    ensures screen.isChaptersVisible == old(screen.isChaptersVisible)
  {
    screen.ToggleChaptersList();
    screen.ToggleChaptersList();
  }
}

=== FILE: courses.dfy ===
/** The catalogue records shared by the course screens — courses, chapters,
    topics, the per-user enrolment records — and the presentation rules that
    several screens repeat: the banner table, the image-key normalisations,
    the title fallback and the section heading. */
module Courses {
  import opened Wrappers
  import opened Text

  /** One explained topic of a chapter. */
  datatype Topic = Topic(topic: string, explain: string, code: Option<string>, example: Option<string>)

  /** A chapter; `completed` is absent (false) until the learner finishes it. */
  datatype Chapter = Chapter(chapterName: string, completed: bool, content: Option<seq<Topic>>)

  /** A course document of the `courses` collection (`type` is `courseType`). */
  datatype Course = Course(
    courseTitle: string,
    description: string,
    courseType: Option<string>,
    category: Option<string>,
    image: Option<string>,
    noOfChapter: Option<string>,
    chapters: seq<Chapter>)

  /** The path `users/{uid}/enrolledCourses/{courseTitle}` of an enrolment record. */
  datatype DocKey = DocKey(uid: string, courseTitle: string)

  /** An enrolment record: a copy of the course plus the enrolment time. */
  datatype EnrolledDoc = EnrolledDoc(course: Course, enrolledAt: string)

  /** The remote store of enrolment records. */
  type EnrolledStore = map<DocKey, EnrolledDoc>

  // ---------------------------------------------------------------------------
  // Banner images

  /** The banner table of the course view, the search screen and the course
      list, from normalised image key to asset. */
  const BannerImages: map<string, string> := map[
    "javaprogramming" := "courses/bannerj.png",
    "python" := "courses/bannerpython.png",
    "c" := "courses/bannerc.png",
    "cpp" := "courses/bannercpp.png",
    "devops" := "courses/bannerdevops.png",
    "cyber" := "courses/bannercyber.png",
    "flutter" := "courses/bannerflutter.png",
    "javascriptprogramming" := "courses/bannerjavascript.png",
    "nosqldatabase" := "courses/bannerns.png",
    "sqldatabase" := "courses/banners.png",
    "react_n" := "courses/bannerreactn.png",
    "rust" := "courses/bannerrust.png",
    "webdev" := "courses/bannerwebdev.png",
    "default" := "bannerj.png"]

  /** `table[key] || table.default`: a key of the table gets its own asset, any
      other key the default one, so every key resolves to an asset of the table. */
  function AssetFor(table: map<string, string>, key: string): (asset: string)
    requires "default" in table
    ensures key in table ==> asset == table[key]
    ensures key !in table ==> asset == table["default"]
    ensures asset in table.Values
  {
    if key in table then table[key] else table["default"]
  }

  /** Image key of the course view and the search screen: `"default"` for a
      missing or empty name, otherwise the trimmed, lower-cased name cut before
      its first `.`. */
  function CutImageKey(image: Option<string>): (key: string)
    ensures !Truthy(image) ==> key == "default"
    ensures '.' !in key
    ensures forall i :: 0 <= i < |key| ==> !IsUpper(key[i])
    ensures Truthy(image) ==> |key| <= |Trim(image.value)| && key == ToLower(Trim(image.value))[..|key|]
    ensures Truthy(image) ==> var k := ToLower(Trim(image.value)); |key| == |k| || k[|key|] == '.'
  {
    if Truthy(image) then
      var k := ToLower(Trim(image.value));
      if '.' in k then BeforeFirst(k, '.') else k
    else "default"
  }

  /** The banner of the course view and of the search cards: the table's entry
      for the cut image key, the default banner for a course without an image
      name or with a key the table lacks. */
  function CutKeyBanner(course: Course): (asset: string)
    ensures var k := CutImageKey(course.image);
      (k in BannerImages ==> asset == BannerImages[k]) && (k !in BannerImages ==> asset == BannerImages["default"])
    ensures asset in BannerImages.Values
    ensures !Truthy(course.image) ==> asset == BannerImages["default"]
  {
    AssetFor(BannerImages, CutImageKey(course.image))
  }

  /** Image key of the course list and the enrolled-course list: `"default"` for
      a missing or empty name, otherwise the trimmed, lower-cased name (no cut). */
  function PlainImageKey(image: Option<string>): (key: string)
    ensures !Truthy(image) ==> key == "default"
    ensures forall i :: 0 <= i < |key| ==> !IsUpper(key[i])
    ensures Truthy(image) ==> key == ToLower(Trim(image.value))
  {
    if Truthy(image) then ToLower(Trim(image.value)) else "default"
  }

  /** `trim` and `toLowerCase` never introduce a `.`. */
  lemma NoDotSurvivesNormalising(name: string)
    requires '.' !in name
    ensures '.' !in ToLower(Trim(name))
  {
    TrimKeepsCharacters(name);
    var t := Trim(name);
    forall i | 0 <= i < |t| ensures ToLower(t)[i] != '.' {
      assert t[i] in t;
    }
  }

  /** The two normalisations agree on names without a `.`. */
  lemma ImageKeysAgreeWithoutDot(image: Option<string>)
    requires image.Some? ==> '.' !in image.value
    ensures CutImageKey(image) == PlainImageKey(image)
  {
    if Truthy(image) {
      NoDotSurvivesNormalising(image.value);
    }
  }

  /** A banner stored as `<key>.<extension>` — a key with no white space at its
      ends, no upper-case letter and no `.` — resolves to `<key>` under the
      cutting normalisation, whatever the extension. */
  lemma CutImageKeyOfFileName(key: string, ext: string)
    requires key != [] && !IsSpace(key[0])
    requires '.' !in key
    requires forall i :: 0 <= i < |key| ==> !IsUpper(key[i])
    requires ext == [] || !IsSpace(ext[|ext| - 1])
    ensures CutImageKey(Some(key + "." + ext)) == key
  {
    var name := key + "." + ext;
    assert name[0] == key[0];
    assert name[|name| - 1] == if ext == [] then '.' else ext[|ext| - 1];
    TrimKeepsUnpadded(name);
    var low := ToLower(name);
    assert low == key + "." + ToLower(ext) by {
      forall i | 0 <= i < |name| ensures low[i] == (key + "." + ToLower(ext))[i] {
        if i < |key| {
          assert name[i] == key[i];
        } else if i > |key| {
          assert name[i] == ext[i - |key| - 1];
        }
      }
    }
    assert '.' in low by {
      assert low[|key|] == '.';
    }
    BeforeFirstOfJoin(key, '.', ToLower(ext));
  }

  /** A name already trimmed and in lower case is its own plain key. */
  lemma PlainImageKeyOfNormalName(name: string)
    requires name != [] && !IsSpace(name[0]) && !IsSpace(name[|name| - 1])
    requires forall i :: 0 <= i < |name| ==> !IsUpper(name[i])
    ensures PlainImageKey(Some(name)) == name
  {
    TrimKeepsUnpadded(name);
    ToLowerKeepsLower(name);
  }

  /** With a file extension the two normalisations part ways: for a banner
      stored as `<key>.<extension>` (say `python.png`) the cut key finds the
      banner of `<key>`, while the plain key keeps the extension and falls back
      to the default banner. */
  lemma PlainImageKeyKeepsExtension(key: string, ext: string)
    requires key in BannerImages && key != [] && !IsSpace(key[0]) && '.' !in key
    requires forall i :: 0 <= i < |key| ==> !IsUpper(key[i])
    requires ext != [] && !IsSpace(ext[|ext| - 1])
    requires forall i :: 0 <= i < |ext| ==> !IsUpper(ext[i])
    requires key + "." + ext !in BannerImages
    ensures AssetFor(BannerImages, CutImageKey(Some(key + "." + ext))) == BannerImages[key]
    ensures AssetFor(BannerImages, PlainImageKey(Some(key + "." + ext))) == BannerImages["default"]
  {
    var name := key + "." + ext;
    CutImageKeyOfFileName(key, ext);
    assert name[0] == key[0] && name[|name| - 1] == ext[|ext| - 1];
    assert forall i :: 0 <= i < |name| ==> !IsUpper(name[i]) by {
      forall i | 0 <= i < |name| ensures !IsUpper(name[i]) {
        if i < |key| {
          assert name[i] == key[i];
        } else if i > |key| {
          assert name[i] == ext[i - |key| - 1];
        }
      }
    }
    PlainImageKeyOfNormalName(name);
  }

  // ---------------------------------------------------------------------------
  // Pressing a course card

  /** Where a press on a catalogue card leads. */
  datatype CardRoute = NoRoute | ToCourseDetail(course: Course) | ToCourseView(course: Course)

  /** `handleCoursePress` of the search screen and the course list: nothing
      without a signed-in user, and nothing when the read of the enrolment
      record fails (`readOk` false: the rejection is not caught); otherwise
      the course detail screen when the user has an enrolment record for the
      course, the course overview when not. Both screens receive the
      catalogue's course, not the enrolment record. */
  function CoursePressRoute(user: Option<string>, course: Course, store: EnrolledStore, readOk: bool): (r: CardRoute)
    ensures r.NoRoute? <==> user.None? || !readOk
    ensures r.ToCourseDetail? <==> user.Some? && readOk && DocKey(user.value, course.courseTitle) in store
    ensures r.ToCourseView? <==> user.Some? && readOk && DocKey(user.value, course.courseTitle) !in store
    ensures !r.NoRoute? ==> r.course == course
  {
    if user.None? || !readOk then NoRoute
    else if DocKey(user.value, course.courseTitle) in store then ToCourseDetail(course)
    else ToCourseView(course)
  }

  // ---------------------------------------------------------------------------
  // Card title and section heading

  /** `courseTitle || 'No Title Available'`: a card never shows an empty title,
      and a non-empty title is shown as stored. */
  function CardTitle(c: Course): (title: string)
    ensures title != []
    ensures c.courseTitle != [] ==> title == c.courseTitle
  {
    if c.courseTitle != [] then c.courseTitle else "No Title Available"
  }

  /** `cat.charAt(0).toUpperCase() + cat.slice(1)`. */
  function Capitalise(cat: string): (r: string)
    ensures |r| == |cat|
    ensures cat != [] ==> r[0] == ToUpperChar(cat[0]) && r[1..] == cat[1..]
  {
    if cat == [] then [] else [ToUpperChar(cat[0])] + cat[1..]
  }

  /** Heading of a category section: "Must Try Courses" for the popular
      section, the capitalised category followed by " Courses" otherwise. */
  function SectionTitle(cat: string): (title: string)
    ensures cat == "popular" ==> title == "Must Try Courses"
    ensures cat != "popular" ==> |title| == |cat| + 8 && title[|cat|..] == " Courses"
    ensures cat != "popular" && cat != [] ==> title[0] == ToUpperChar(cat[0]) && title[1..|cat|] == cat[1..]
  {
    if cat == "popular" then "Must Try Courses" else Capitalise(cat) + " Courses"
  }

  /** Apart from the popular section, the heading names its category: lower-cased
      it is the lower-cased category followed by " courses". */
  lemma SectionTitleNamesCategory(cat: string)
    requires cat != "popular"
    ensures ToLower(SectionTitle(cat)) == ToLower(cat) + " courses"
  {
    var t := SectionTitle(cat);
    var u := Capitalise(cat);
    assert t == u + " Courses";
    forall i | 0 <= i < |t| ensures ToLower(t)[i] == (ToLower(cat) + " courses")[i] {
      if i == 0 && cat != [] {
        assert t[0] == ToUpperChar(cat[0]);
      } else if i < |cat| {
        assert t[i] == u[i] == u[1..][i - 1] == cat[i];
      }
    }
  }
}

=== FILE: journeys.dfy ===
/** Properties that span several screens: enrolling in a course, opening its
    chapters through the completion gate, and finishing them. */
module Journeys {
  import opened Wrappers
  import opened Text
  import opened Courses
  import opened CourseView
  import opened CourseDetail
  import opened ChapterDetail
  import Search
  import CourseList

  /** No two chapters of the list share a name; the completion map finds a
      chapter by its name. */
  predicate DistinctNames(chapters: seq<Chapter>) {
    forall j, k :: 0 <= j < k < |chapters| ==> chapters[j].chapterName != chapters[k].chapterName
  }

  /** Finishing a chapter the gate let through keeps completion a prefix of
      the list, marks that chapter, and opens the gate of the next one. */
  lemma FinishingOpenChapterKeepsPrefix(chapters: seq<Chapter>, i: nat)
    requires PrefixCompleted(chapters) && DistinctNames(chapters)
    requires i < |chapters| && ChapterUnlocked(chapters, i)
    ensures var after := MarkCompleted(chapters, chapters[i].chapterName);
      && PrefixCompleted(after)
      && after[i].completed
      && (i + 1 < |chapters| ==> ChapterUnlocked(after, i + 1))
  {
    var after := MarkCompleted(chapters, chapters[i].chapterName);
    forall j, k | 0 <= j < k < |after| && after[k].completed ensures after[j].completed {
      if !chapters[k].completed {
        assert chapters[k].chapterName == chapters[i].chapterName;
        assert k == i;
        if j < i - 1 {
          assert chapters[i - 1].completed;
        }
      }
    }
  }

  /** Finishing chapter `i` of the learner's stored course, with the save
      going through, stores exactly the course handed back to the course
      detail screen: a reload shows what the screen was given. */
  lemma FinishedChapterReloads(stored: Course, uid: string, i: nat, store: EnrolledStore)
    requires uid != [] && i < |stored.chapters|
    requires DocKey(uid, stored.courseTitle) in store && store[DocKey(uid, stored.courseTitle)].course == stored
    requires HandleChapterPress(stored, i).OpenChapter?
    ensures var press := HandleChapterPress(stored, i);
      var newStore := SaveChapterCompletion(Some(uid), press.course, press.chapter, store, true);
      StoredCourse(stored, uid, newStore) == UpdatedCourse(press.course, press.chapter)
  {
  }

  /** The first steps of a learner: enrol in a course, load its progress,
      open its first chapter and finish it. The stored course then has its
      first chapter completed, and the gate of the second one open. */
  lemma EnrollThenFinishFirstChapter(store: EnrolledStore, uid: string, course: Course, now: string)
    requires uid != [] && |course.chapters| >= 1
    requires PrefixCompleted(course.chapters) && DistinctNames(course.chapters)
    ensures var enrolled := Enroll(store, uid, course, now);
      var stored := StoredCourse(course, uid, enrolled);
      var press := HandleChapterPress(stored, 0);
      && press.OpenChapter?
      && var finished := SaveChapterCompletion(Some(uid), press.course, press.chapter, enrolled, true);
      var reloaded := StoredCourse(course, uid, finished);
      && reloaded.chapters[0].completed
      && PrefixCompleted(reloaded.chapters)
      && (|course.chapters| > 1 ==> ChapterUnlocked(reloaded.chapters, 1))
  {
    var enrolled := Enroll(store, uid, course, now);
    var stored := StoredCourse(course, uid, enrolled);
    assert stored == course;
    FinishedChapterReloads(stored, uid, 0, enrolled);
    FinishingOpenChapterKeepsPrefix(course.chapters, 0);
  }

  /** Once enrolled, a press on the course's card in the catalogue opens the
      course detail screen instead of the overview. */
  lemma EnrolledCardOpensDetail(store: EnrolledStore, uid: string, course: Course, now: string)
    ensures CoursePressRoute(Some(uid), course, store, true).ToCourseView? ==>
      DocKey(uid, course.courseTitle) !in store
    ensures CoursePressRoute(Some(uid), course, Enroll(store, uid, course, now), true) == ToCourseDetail(course)
  {
  }

  /** The search screen matches a category regardless of case, the home list
      only exactly: a course of category "Coding" is in the search screen's
      "coding" section but not in the home screen's. */
  lemma CategoryCaseDiffersBetweenScreens(c: Course)
    requires c.category == Some("Coding")
    ensures c in Search.SectionCourses([c], "", "All", "coding")
    ensures CourseList.CoursesByCategory([c], "coding") == []
  {
    assert ToLower("Coding") == ToLower("coding") by {
      assert ToLower("Coding")[0] == ToLowerChar('C') == 'c';
    }
  }
}

=== FILE: lists.dfy ===
/** `Array.prototype.filter` and the order-preserving subsequence relation it
    establishes. */
module Lists {

  /** `a` can be obtained from `b` by deleting elements, keeping the order. */
  predicate IsSubsequence<T(==)>(a: seq<T>, b: seq<T>)
    decreases |b|
  {
    if a == [] then true
    else if b == [] then false
    else (a[0] == b[0] && IsSubsequence(a[1..], b[1..])) || IsSubsequence(a, b[1..])
  }

  /** `s.filter(keep)`: exactly the elements of `s` that `keep` accepts, in the
      order of `s`; FilterCounts adds that each is kept as often as `s` holds
      it. */
  function Filter<T(==,!new)>(s: seq<T>, keep: T -> bool): (r: seq<T>)
    ensures |r| <= |s|
    ensures forall x :: x in r <==> x in s && keep(x)
    ensures IsSubsequence(r, s)
  {
    if s == [] then []
    else if keep(s[0]) then
      var rest := Filter(s[1..], keep);
      assert ([s[0]] + rest)[1..] == rest;
      [s[0]] + rest
    else Filter(s[1..], keep)
  }

  /** A filter keeps every accepted element as often as `s` holds it, and
      no rejected one. */
  lemma {:induction false} FilterCounts<T(!new)>(s: seq<T>, keep: T -> bool, x: T)
    ensures multiset(Filter(s, keep))[x] == if keep(x) then multiset(s)[x] else 0
  {
    if s != [] {
      FilterCounts(s[1..], keep, x);
      assert s == [s[0]] + s[1..];
    }
  }

  /** A filter that accepts every element returns the whole sequence. */
  lemma {:induction false} FilterKeepsAll<T(!new)>(s: seq<T>, keep: T -> bool)
    requires forall x :: x in s ==> keep(x)
    ensures Filter(s, keep) == s
  {
    if s != [] {
      FilterKeepsAll(s[1..], keep);
    }
  }

  /** Two tests that agree on the elements of `s` filter it the same way. */
  lemma {:induction false} FilterAgrees<T(!new)>(s: seq<T>, keep1: T -> bool, keep2: T -> bool)
    requires forall x :: x in s ==> keep1(x) == keep2(x)
    ensures Filter(s, keep1) == Filter(s, keep2)
  {
    if s != [] {
      FilterAgrees(s[1..], keep1, keep2);
    }
  }

  /** Filtering twice is filtering once by both tests. */
  lemma {:induction false} FilterTwice<T(!new)>(s: seq<T>, keep1: T -> bool, keep2: T -> bool)
    ensures Filter(Filter(s, keep1), keep2) == Filter(s, x => keep1(x) && keep2(x))
  {
    if s != [] {
      FilterTwice(s[1..], keep1, keep2);
      if keep1(s[0]) {
        assert ([s[0]] + Filter(s[1..], keep1))[1..] == Filter(s[1..], keep1);
      }
    }
  }
}

=== FILE: my_course.dfy ===
/** The "my courses" screen: the learner's enrolled courses as cards, or an
    empty-state message when there are none. */
module MyCourse {
  import opened Wrappers
  import opened Text
  import opened Courses

  /** The card images of this screen, from trimmed, lower-cased image name to
      asset. */
  const CardImages: map<string, string> := map[
    "java" := "courses/java.png",
    "python" := "courses/python.png",
    "c" := "courses/C.png",
    "cpp" := "courses/cpp.png",
    "devops" := "courses/devOps.png",
    "cyber" := "courses/cyber.png",
    "flutter" := "courses/flutter.png",
    "javascript" := "courses/javascript.png",
    "nosql" := "courses/noSql.png",
    "sql" := "courses/sql.png",
    "react_n" := "courses/react_n.png",
    "rust" := "courses/rust.png",
    "webdev" := "courses/webDev.png",
    "default" := "java.png"]

  /** `parseInt(noOfChapter, 10) || 0`: the integer at the start of the stored
      count, and 0 when there is none (or it is 0). */
  function ChapterCount(c: Course): (n: int)
    ensures c.noOfChapter.None? ==> n == 0
    ensures c.noOfChapter.Some? && ParseInt(c.noOfChapter.value).None? ==> n == 0
  {
    if c.noOfChapter.None? then 0
    else match ParseInt(c.noOfChapter.value)
      case None => 0
      case Some(v) => v
  }

  /** A count stored as a numeral, possibly followed by a unit ("12 chapters"),
      is read back as that number. */
  lemma ChapterCountOfNumeral(c: Course, n: nat, rest: string)
    requires c.noOfChapter == Some(NatToString(n) + rest)
    requires rest == [] || !IsDigit(rest[0])
    ensures ChapterCount(c) == n
  {
    ParseIntOfNumeral(n, rest);
  }

  /** A count with no digit at all (after white space and a sign) shows 0. */
  lemma ChapterCountWithoutDigits(c: Course)
    requires c.noOfChapter.Some?
    requires var t := TrimStart(c.noOfChapter.value);
      t == [] || (!IsDigit(t[0]) && t[0] != '-' && t[0] != '+')
    ensures ChapterCount(c) == 0
  {
  }

  /** The fields of an enrolled-course card. */
  datatype Card = Card(title: string, lectures: int, image: string)

  /** The card of a course: the title or 'No Title Available', the parsed
      chapter count, and the image of the trimmed, lower-cased name, the
      default image for an absent or unknown one. */
  function CourseCard(c: Course): (card: Card)
    ensures card.title == CardTitle(c) && card.lectures == ChapterCount(c)
    ensures var k := PlainImageKey(c.image);
      card.image == (if k in CardImages then CardImages[k] else CardImages["default"])
    ensures card.image in CardImages.Values
    ensures !Truthy(c.image) ==> card.image == CardImages["default"]
    ensures PlainImageKey(c.image) !in CardImages ==> card.image == CardImages["default"]
  {
    Card(CardTitle(c), ChapterCount(c), AssetFor(CardImages, PlainImageKey(c.image)))
  }

  /** What the screen shows below its header. */
  datatype View = EmptyState | CourseCards(cards: seq<Card>)

  /** The empty-state message exactly when no course is enrolled; otherwise one
      card per enrolled course, in order. */
  function EnrolledView(enrolled: seq<Course>): (v: View)
    ensures v.EmptyState? <==> enrolled == []
    ensures v.CourseCards? ==>
      |v.cards| == |enrolled| && forall i :: 0 <= i < |enrolled| ==> v.cards[i] == CourseCard(enrolled[i])
  {
    if enrolled == [] then EmptyState
    else CourseCards(seq(|enrolled|, i requires 0 <= i < |enrolled| => CourseCard(enrolled[i])))
  }
}

=== FILE: notifications.dfy ===
/** The notifications screen: the received notification texts, newest first,
    kept in memory and mirrored under the `notifications` key of the device
    storage; and the root screen's listener, which stores each received text
    under the same key. */
module Notifications {
  import opened Wrappers
  import opened Text

  /** The `notifications` key of the device storage: the stored list, or
      `None` when the key is absent. */
  type Stored = Option<seq<string>>

  /** `[message, ...list]`: the message first, the list after it unchanged. */
  function Prepend(message: string, list: seq<string>): (r: seq<string>)
    ensures |r| == |list| + 1
    ensures r[0] == message && r[1..] == list
    ensures forall i :: 0 <= i < |list| ==> r[i + 1] == list[i]
  {
    [message] + list
  }

  /** `body || ''`: the text of a notification. Since the empty string is the
      only falsy string, this is the body with the empty string as default. */
  function MessageOf(body: Option<string>): (m: string)
    ensures m == body.GetOr("")
    ensures m == [] <==> !Truthy(body)
  {
    if Truthy(body) then body.value else ""
  }

  /** `saved ? JSON.parse(saved) : []`: the stored list, the empty list when
      the key is absent. */
  function StoredList(stored: Stored): (list: seq<string>)
    ensures stored.None? ==> list == []
    ensures stored.Some? ==> list == stored.value
  {
    stored.GetOr([])
  }

  /** The root screen's `storeNotification`: read the stored list, put the
      message in front, write the result back. `ok` says whether the read, the
      parse and the write all succeed; when one of them fails the error is
      caught and the stored value stays as it was. */
  function StoreNotification(stored: Stored, message: string, ok: bool): (r: Stored)
    ensures ok ==> r.Some? && |r.value| == |StoredList(stored)| + 1
    ensures ok ==> r.value[0] == message && r.value[1..] == StoredList(stored)
    ensures !ok ==> r == stored
  {
    if ok then Some(Prepend(message, StoredList(stored))) else stored
  }

  /** The stored value after storing each of `messages` in turn, the `i`-th
      store succeeding exactly when `oks[i]` holds. */
  function StoreEach(stored: Stored, messages: seq<string>, oks: seq<bool>): Stored
    requires |oks| == |messages|
    decreases |messages|
  {
    if messages == [] then stored
    else StoreEach(StoreNotification(stored, messages[0], oks[0]), messages[1..], oks[1..])
  }

  /** The messages whose store succeeded, in arrival order. */
  function Kept(messages: seq<string>, oks: seq<bool>): seq<string>
    requires |oks| == |messages|
    decreases |messages|
  {
    if messages == [] then []
    else (if oks[0] then [messages[0]] else []) + Kept(messages[1..], oks[1..])
  }

  /** The messages, last one first. */
  function Reversed(s: seq<string>): seq<string> {
    if s == [] then [] else Reversed(s[1..]) + [s[0]]
  }

  /** Storing messages one after another keeps those whose store succeeded,
      newest first, in front of what was stored before; the others are lost. */
  lemma {:induction false} StoreAll(stored: Stored, messages: seq<string>, oks: seq<bool>)
    requires |oks| == |messages|
    ensures StoreEach(stored, messages, oks).Some? || Kept(messages, oks) == []
    ensures StoredList(StoreEach(stored, messages, oks)) == Reversed(Kept(messages, oks)) + StoredList(stored)
    decreases |messages|
  {
    if messages != [] {
      var first := StoreNotification(stored, messages[0], oks[0]);
      StoreAll(first, messages[1..], oks[1..]);
      var rest := Kept(messages[1..], oks[1..]);
      if oks[0] {
        assert Kept(messages, oks) == [messages[0]] + rest;
        assert StoredList(first) == [messages[0]] + StoredList(stored);
        ReversedCons(messages[0], rest);
        assert Reversed(rest) + ([messages[0]] + StoredList(stored))
          == (Reversed(rest) + [messages[0]]) + StoredList(stored);
      } else {
        assert Kept(messages, oks) == rest;
      }
    }
  }

  lemma ReversedCons(x: string, rest: seq<string>)
    ensures Reversed([x] + rest) == Reversed(rest) + [x]
  {
    assert ([x] + rest)[1..] == rest;
  }

  /** What the screen body shows. */
  datatype View = Spinner | NoNotifications | Cards(items: seq<string>)

  function ScreenView(loading: bool, notifications: seq<string>): (v: View)
    ensures v.Spinner? <==> loading
    ensures v.NoNotifications? <==> !loading && notifications == []
    ensures v.Cards? ==> v.items == notifications && v.items != []
  {
    if loading then Spinner
    else if notifications == [] then NoNotifications
    else Cards(notifications)
  }

  /** The screen's list and loading flag, with the storage key it mirrors. */
  class NotificationScreen {
    var notifications: seq<string>
    var loading: bool
    var stored: Stored

    /** Once loaded, the list shown is the list stored. */
    ghost predicate InSync()
      reads this
    {
      !loading ==> notifications == StoredList(stored)
    }

    constructor(stored: Stored)
      ensures notifications == [] && loading && this.stored == stored
      ensures InSync()
    {
      notifications := [];
      loading := true;
      this.stored := stored;
    }

    /** The load on mount: a successful read shows the stored list (none
      when the key is absent); a failed read leaves the list as it was.
      Loading ends either way. */
    method Load(readOk: bool)
      modifies this
      ensures readOk ==> notifications == StoredList(stored)
      ensures !readOk ==> notifications == old(notifications)
      ensures !loading && stored == old(stored)
      ensures readOk ==> InSync()
    {
      if readOk {
        notifications := StoredList(stored);
      }
      loading := false;
    }

    /** A notification arrives: its text goes in front of the list, and the
      new list is written to the storage key. The write is not awaited, so
      the list changes whether or not the write succeeds (`writeOk`). */
    method Receive(body: Option<string>, writeOk: bool)
      modifies this
      ensures notifications == Prepend(MessageOf(body), old(notifications))
      ensures writeOk ==> stored == Some(notifications)
      ensures !writeOk ==> stored == old(stored)
      ensures loading == old(loading)
      ensures old(InSync()) && writeOk ==> InSync()
    {
      var updated := Prepend(MessageOf(body), notifications);
      if writeOk {
        stored := Some(updated);
      }
      notifications := updated;
    }

    /** The trash button: the key is removed and the list emptied. */
    method Clear()
      modifies this
      ensures stored.None? && notifications == []
      ensures loading == old(loading)
      ensures InSync()
    {
      stored := None;
      notifications := [];
    }
  }
}

=== FILE: quiz.dfy ===
/** The timed quiz session of the quiz screen: up to ten questions drawn from
    a shuffled quiz, a two-minute countdown, one answer per question, then a
    summary of the score. The one-second interval and the one-second delay
    after an answer are explicit steps (`Tick`, `Advance`). */
module Quiz {
  import opened Wrappers
  import opened Text

  /** One multiple-choice question. */
  datatype Question = Question(question: string, options: seq<string>, correctAns: string)

  /** Length of the countdown, in seconds. */
  const QuizSeconds: nat := 120

  /** Most questions a session asks. */
  const MaxQuestions: nat := 10

  /** The screen state: `selected` is the answer shown for the current question
      (`null` before one is chosen); `loading` is true until the quiz document
      has been read. */
  datatype QuizState = QuizState(
    questions: seq<Question>,
    currentIndex: nat,
    score: nat,
    selected: Option<string>,
    timeLeft: nat,
    completed: bool,
    loading: bool)

  /** The state on mount: nothing loaded, full time on the clock. */
  function Initial(): (s: QuizState)
    ensures Inv(s) && !s.completed && s.timeLeft == QuizSeconds
  {
    QuizState([], 0, 0, None, QuizSeconds, false, true)
  }

  /** What a session can reach: the index stays on a question, every point
      comes from an answered question, the clock stays within its range and
      runs out only by completing the session. */
  ghost predicate Inv(s: QuizState) {
    && (s.questions == [] ==> s.currentIndex == 0 && s.selected.None?)
    && (s.questions != [] ==> s.currentIndex < |s.questions|)
    && s.score <= s.currentIndex + (if s.selected.Some? then 1 else 0)
    && s.timeLeft <= QuizSeconds
    && (!s.completed ==> s.timeLeft >= 1)
    && (s.loading ==> s.questions == [] && s.score == 0)
  }

  /** Each question is scored at most once, so the score never exceeds the
      number of questions. */
  lemma ScoreBounded(s: QuizState)
    requires Inv(s)
    ensures s.score <= |s.questions|
  {
  }

  // ---------------------------------------------------------------------------
  // Question selection

  /** `quiz.sort(random).slice(0, 10)`, given the shuffled order. */
  function SelectQuestions(shuffled: seq<Question>): seq<Question> {
    if |shuffled| <= MaxQuestions then shuffled else shuffled[..MaxQuestions]
  }

  /** Whatever order the shuffle produced, the session gets min(n, 10)
      questions of the quiz, none of them more often than the quiz has it. */
  lemma SelectionIsPermutationPrefix(quiz: seq<Question>, shuffled: seq<Question>)
    requires multiset(shuffled) == multiset(quiz)
    ensures var r := SelectQuestions(shuffled);
      && |r| == (if |quiz| <= MaxQuestions then |quiz| else MaxQuestions)
      && multiset(r) <= multiset(quiz)
      && (forall q :: q in r ==> q in quiz)
  {
    assert |shuffled| == |multiset(shuffled)| == |quiz|;
    var r := SelectQuestions(shuffled);
    if |shuffled| > MaxQuestions {
      assert shuffled == r + shuffled[MaxQuestions..];
      assert multiset(shuffled) == multiset(r) + multiset(shuffled[MaxQuestions..]);
    }
    assert multiset(r) <= multiset(quiz);
    forall q | q in r ensures q in quiz {
      assert q in multiset(r);
      assert q in multiset(quiz);
    }
  }

  /** The read of the quiz document: a found quiz yields its selected
      questions, a missing quiz or a failed read leaves the list empty; loading
      ends either way. */
  function LoadStep(s: QuizState, quiz: Fetch<seq<Question>>, shuffled: seq<Question>): (r: QuizState)
    requires quiz.Found? ==> multiset(shuffled) == multiset(quiz.doc)
    ensures !r.loading
    ensures s.loading && quiz.Found? ==> r.questions == SelectQuestions(shuffled)
    ensures !(s.loading && quiz.Found?) ==> r.questions == s.questions
    ensures r.(questions := s.questions, loading := s.loading) == s
    ensures Inv(s) ==> Inv(r)
  {
    if s.loading && quiz.Found? then s.(questions := SelectQuestions(shuffled), loading := false)
    else s.(loading := false)
  }

  // ---------------------------------------------------------------------------
  // The countdown

  /** One interval tick. A completed session has no interval, so nothing
      changes; otherwise the last second completes the session at 0, any
      other second is taken off the clock. Only the clock and the completion
      flag ever change, and the clock never goes up. */
  function TickStep(s: QuizState): (r: QuizState)
    ensures s.completed ==> r == s
    ensures r.timeLeft <= s.timeLeft && (s.completed ==> r.completed)
    ensures r.(timeLeft := s.timeLeft, completed := s.completed) == s
    ensures Inv(s) ==> Inv(r)
  {
    if s.completed then s
    else if s.timeLeft <= 1 then s.(timeLeft := 0, completed := true)
    else s.(timeLeft := s.timeLeft - 1)
  }

  /** `n` consecutive ticks. */
  function Ticks(s: QuizState, n: nat): QuizState
    decreases n
  {
    if n == 0 then s else Ticks(TickStep(s), n - 1)
  }

  /** Before the clock runs out, `n` ticks take exactly `n` seconds off and
      leave the session running. */
  lemma {:induction false} TicksCountDown(s: QuizState, n: nat)
    requires !s.completed && n < s.timeLeft
    ensures Ticks(s, n) == s.(timeLeft := s.timeLeft - n)
    decreases n
  {
    if n > 0 {
      TicksCountDown(TickStep(s), n - 1);
    }
  }

  /** Once completed, ticks change nothing: the remaining time is frozen. */
  lemma {:induction false} TicksAfterCompletion(s: QuizState, n: nat)
    requires s.completed
    ensures Ticks(s, n) == s
    decreases n
  {
    if n > 0 {
      TicksAfterCompletion(TickStep(s), n - 1);
    }
  }

  /** A running session with `t >= 1` seconds left is completed, at 0, after
      exactly `t` ticks and not before. */
  lemma TicksRunOut(s: QuizState)
    requires !s.completed && s.timeLeft >= 1
    ensures Ticks(s, s.timeLeft) == s.(timeLeft := 0, completed := true)
    ensures forall n :: 0 <= n < s.timeLeft ==> !Ticks(s, n).completed
  {
    var t := s.timeLeft;
    TicksCountDown(s, t - 1);
    var last := s.(timeLeft := 1);
    assert Ticks(s, t - 1) == last;
    TicksSplit(s, t - 1, 1);
    forall n | 0 <= n < t ensures !Ticks(s, n).completed {
      TicksCountDown(s, n);
    }
  }

  /** Ticking `m` then `n` times is ticking `m + n` times. */
  lemma {:induction false} TicksSplit(s: QuizState, m: nat, n: nat)
    ensures Ticks(s, m + n) == Ticks(Ticks(s, m), n)
    decreases m
  {
    if m > 0 {
      TicksSplit(TickStep(s), m - 1, n);
    }
  }

  /** With no answers, a fresh session is completed with no time left after
      exactly 120 ticks, and is still running after any fewer. */
  lemma TimeoutAfter120Ticks()
    ensures Ticks(Initial(), QuizSeconds) == Initial().(timeLeft := 0, completed := true)
    ensures forall n :: 0 <= n < QuizSeconds ==> !Ticks(Initial(), n).completed
  {
    TicksRunOut(Initial());
  }

  // ---------------------------------------------------------------------------
  // Answering and advancing

  /** Whether the options of the current question accept a press. */
  predicate OptionsEnabled(s: QuizState) {
    !s.completed && s.selected.None?
  }

  /** A press on option `answer` of the current question: while the options are
      enabled it records the answer and scores one point exactly when it is the
      correct one; otherwise nothing happens. */
  function AnswerStep(s: QuizState, answer: string): (r: QuizState)
    requires s.currentIndex < |s.questions|
    requires answer in s.questions[s.currentIndex].options
    ensures OptionsEnabled(s) ==> r.selected == Some(answer)
    ensures OptionsEnabled(s) ==>
      r.score == s.score + (if answer == s.questions[s.currentIndex].correctAns then 1 else 0)
    ensures !OptionsEnabled(s) ==> r == s
    ensures r.(score := s.score, selected := s.selected) == s
    ensures Inv(s) ==> Inv(r)
  {
    if OptionsEnabled(s) then
      var gained := if answer == s.questions[s.currentIndex].correctAns then 1 else 0;
      s.(score := s.score + gained, selected := Some(answer))
    else s
  }

  /** A second press on the same question scores nothing: each question is
      scored at most once. */
  lemma AnswerScoresOnce(s: QuizState, first: string, second: string)
    requires s.currentIndex < |s.questions|
    requires first in s.questions[s.currentIndex].options
    requires second in s.questions[s.currentIndex].options
    ensures AnswerStep(AnswerStep(s, first), second) == AnswerStep(s, first)
    ensures AnswerStep(AnswerStep(s, first), second).score <= s.score + 1
  {
  }

  /** The delayed step after an answer: the next question with the answer
      cleared, or, after the last question, completion. */
  function AdvanceStep(s: QuizState): (r: QuizState)
    requires s.selected.Some?
    ensures s.currentIndex < |s.questions| - 1 ==>
      r.currentIndex == s.currentIndex + 1 && r.selected.None? && r.completed == s.completed
    ensures s.currentIndex >= |s.questions| - 1 ==>
      r.currentIndex == s.currentIndex && r.completed && r.selected == s.selected
    ensures r.score == s.score && r.timeLeft == s.timeLeft && r.questions == s.questions
    ensures Inv(s) ==> Inv(r)
  {
    if s.currentIndex < |s.questions| - 1 then
      s.(currentIndex := s.currentIndex + 1, selected := None)
    else
      s.(completed := true)
  }

  /** One correct answer and the delayed advance: a point is gained, and the
      next question is shown with its options enabled, or the session ends
      after the last one. */
  lemma CorrectAnswerAdvances(s: QuizState)
    requires Inv(s) && OptionsEnabled(s) && s.questions != []
    requires s.questions[s.currentIndex].correctAns in s.questions[s.currentIndex].options
    ensures var r := AdvanceStep(AnswerStep(s, s.questions[s.currentIndex].correctAns));
      r.score == s.score + 1 && r.questions == s.questions && Inv(r)
      && (s.currentIndex < |s.questions| - 1 ==> r.currentIndex == s.currentIndex + 1 && OptionsEnabled(r))
      && (s.currentIndex == |s.questions| - 1 ==> r.completed)
  {
  }

  /** Every question offers its correct answer among its options. */
  predicate CorrectAnswersOffered(questions: seq<Question>) {
    forall i :: 0 <= i < |questions| ==> questions[i].correctAns in questions[i].options
  }

  /** `n` rounds of pressing the current question's correct answer and
      advancing, stopping early once the options no longer accept a press. */
  function AnswerCorrectly(s: QuizState, n: nat): QuizState
    decreases n
  {
    if n == 0 || !OptionsEnabled(s) || s.currentIndex >= |s.questions| then s
    else
      var q := s.questions[s.currentIndex];
      if q.correctAns !in q.options then s
      else AnswerCorrectly(AdvanceStep(AnswerStep(s, q.correctAns)), n - 1)
  }

  /** Answering every remaining question correctly, one after another, ends the
      session with one point per question: a session with a point for each
      question before the current one ends with the full score. */
  lemma {:induction false} AllCorrectScoresAll(s: QuizState)
    requires Inv(s) && OptionsEnabled(s) && s.questions != []
    requires CorrectAnswersOffered(s.questions)
    requires s.score == s.currentIndex
    ensures var r := AnswerCorrectly(s, |s.questions| - s.currentIndex);
      r.completed && r.score == |s.questions|
    decreases |s.questions| - s.currentIndex
  {
    var q := s.questions[s.currentIndex];
    CorrectAnswerAdvances(s);
    var next := AdvanceStep(AnswerStep(s, q.correctAns));
    if s.currentIndex < |s.questions| - 1 {
      AllCorrectScoresAll(next);
    } else {
      assert AnswerCorrectly(next, 0) == next;
    }
  }

  // ---------------------------------------------------------------------------
  // Summary and clock display

  /** The figures of the completed view. */
  datatype Summary = Summary(total: nat, correct: nat, wrong: int, points: nat)

  /** Total questions, correct answers, wrong count `total - score` and
      `score * 10` points: correct and wrong add up to the total, and in any
      reachable state the wrong count is not negative. */
  function Summarise(s: QuizState): (r: Summary)
    ensures r.total == |s.questions| && r.correct == s.score
    ensures r.correct + r.wrong == r.total
    ensures r.points == 10 * r.correct
    ensures Inv(s) ==> 0 <= r.wrong <= r.total
  {
    Summary(|s.questions|, s.score, |s.questions| - s.score, s.score * 10)
  }

  /** `n < 10 ? "0" + n : n`: below 100 always two digits that read back as `n`. */
  function Pad2(n: nat): (r: string)
    ensures forall i :: 0 <= i < |r| ==> IsDigit(r[i])
    ensures n < 100 ==> |r| == 2 && DigitsValue(r) == n
    ensures n >= 10 ==> r == NatToString(n)
  {
    if n < 10 then
      var r := "0" + NatToString(n);
      assert r[..1] == "0" && DigitsValue("0") == 0;
      assert r[1] == DigitChar(n);
      r
    else
      NatToStringValue(n);
      NatToString(n)
  }

  /** The `mm:ss` countdown: minutes and seconds, each zero-padded. */
  function TimeDisplay(t: nat): string {
    Pad2(t / 60) + ":" + Pad2(t % 60)
  }

  /** Under 100 minutes the display is five characters `mm:ss`: the minutes
      and the seconds below 60, each in two digits, reading back as the
      remaining time; in particular every value of the two-minute clock
      is. */
  lemma TimeDisplayRoundTrip(t: nat)
    requires t < 6000
    ensures var r := TimeDisplay(t);
      && |r| == 5 && r[2] == ':'
      && (forall i :: 0 <= i < 5 && i != 2 ==> IsDigit(r[i]))
      && DigitsValue(r[..2]) == t / 60 && DigitsValue(r[3..]) == t % 60
      && DigitsValue(r[..2]) * 60 + DigitsValue(r[3..]) == t
  {
    var r := TimeDisplay(t);
    assert r[..2] == Pad2(t / 60);
    assert r[3..] == Pad2(t % 60);
  }

  // ---------------------------------------------------------------------------
  // The screen object

  /** The quiz screen's state variables, updated in place by the load, the
      interval, the option presses and the delayed advance. */
  class QuizSession {
    var questions: seq<Question>
    var currentIndex: nat
    var score: nat
    var selectedAnswer: Option<string>
    var timeLeft: nat
    var completed: bool
    var loading: bool

    ghost function State(): QuizState
      reads this
    {
      QuizState(questions, currentIndex, score, selectedAnswer, timeLeft, completed, loading)
    }

    ghost predicate Valid()
      reads this
    {
      Inv(State())
    }

    constructor()
      ensures State() == Initial() && Valid()
    {
      questions := [];
      currentIndex := 0;
      score := 0;
      selectedAnswer := None;
      timeLeft := QuizSeconds;
      completed := false;
      loading := true;
    }

    /** The quiz document read: store the first ten of the shuffled questions. */
    method Load(quiz: Fetch<seq<Question>>, shuffled: seq<Question>)
      requires quiz.Found? ==> multiset(shuffled) == multiset(quiz.doc)
      modifies this
      ensures State() == LoadStep(old(State()), quiz, shuffled)
      ensures old(Valid()) ==> Valid()
    {
      if loading && quiz.Found? {
        questions := SelectQuestions(shuffled);
      }
      loading := false;
    }

    /** One second of the interval. */
    method Tick()
      modifies this
      ensures State() == TickStep(old(State()))
      ensures old(Valid()) ==> Valid()
    {
      if completed {
        return;
      }
      if timeLeft <= 1 {
        timeLeft := 0;
        completed := true;
      } else {
        timeLeft := timeLeft - 1;
      }
    }

    /** A press on an option of the current question. */
    method Answer(answer: string)
      requires currentIndex < |questions| && answer in questions[currentIndex].options
      modifies this
      ensures State() == AnswerStep(old(State()), answer)
      ensures old(Valid()) ==> Valid()
    {
      if !completed && selectedAnswer.None? {
        if answer == questions[currentIndex].correctAns {
          score := score + 1;
        }
        selectedAnswer := Some(answer);
      }
    }

    /** The delayed step one second after an answer. */
    method Advance()
      requires selectedAnswer.Some?
      modifies this
      ensures State() == AdvanceStep(old(State()))
      ensures old(Valid()) ==> Valid()
    {
      if currentIndex < |questions| - 1 {
        currentIndex := currentIndex + 1;
        selectedAnswer := None;
      } else {
        completed := true;
      }
    }
  }

  // ---------------------------------------------------------------------------
  // Findings: the option guard as written

  /** The options as written are disabled by `!!selectedAnswer`, which is false
      for an empty answer: after choosing an empty option the options stay
      enabled. */
  predicate OptionsEnabledAsWritten(s: QuizState) {
    !s.completed && !(s.selected.Some? && s.selected.value != "")
  }

  /** The press as written, with the truthiness guard. */
  function AnswerStepAsWritten(s: QuizState, answer: string): (r: QuizState)
    requires s.currentIndex < |s.questions|
    requires answer in s.questions[s.currentIndex].options
    ensures OptionsEnabledAsWritten(s) ==>
      r.score == s.score + (if answer == s.questions[s.currentIndex].correctAns then 1 else 0)
    ensures !OptionsEnabledAsWritten(s) ==> r == s
  {
    if OptionsEnabledAsWritten(s) then
      var gained := if answer == s.questions[s.currentIndex].correctAns then 1 else 0;
      s.(score := s.score + gained, selected := Some(answer))
    else s
  }

  /** A one-question quiz whose correct option is empty: pressing it twice as
      written scores 2 out of 1, and the summary's wrong count is -1 (shown as
      `0-1`). */
  lemma EmptyOptionScoredTwice()
    ensures var q := Question("Pick the empty one", ["", "x"], "");
      var s := Initial().(questions := [q], loading := false);
      var r := AnswerStepAsWritten(AnswerStepAsWritten(s, ""), "");
      && Inv(s)
      && r.score == 2 > |r.questions|
      && Summarise(r).wrong == -1
  {
  }
}

=== FILE: search.dfy ===
/** The search screen: the text search with its category chips, the
    per-category sections, and the course cards. */
module Search {
  import opened Wrappers
  import opened Text
  import opened Lists
  import opened Courses

  /** The category chips, "All" first. */
  const Categories: seq<string> := ["All", "Coding", "Development", "Database", "New Tech"]

  /** The course's category equals `cat` ignoring case; a course without a
      category matches nothing. */
  predicate CategoryIs(c: Course, cat: string) {
    c.category.Some? && ToLower(c.category.value) == ToLower(cat)
  }

  /** An empty query matches everything; otherwise the lower-cased title must
      contain the lower-cased query. */
  predicate MatchesSearch(c: Course, query: string) {
    query == [] || Contains(ToLower(c.courseTitle), ToLower(query))
  }

  /** The chip filter, bypassed while a query is typed. */
  predicate MatchesCategory(c: Course, query: string, selected: string) {
    query != [] || selected == "All" || CategoryIs(c, selected)
  }

  /** The list the screen shows: the courses matching both the search and the
      chip, in their original order. */
  function FilteredCourses(courses: seq<Course>, query: string, selected: string): (r: seq<Course>)
    ensures IsSubsequence(r, courses)
    ensures forall c :: c in r <==> c in courses && MatchesSearch(c, query) && MatchesCategory(c, query, selected)
  {
    Filter(courses, c => MatchesSearch(c, query) && MatchesCategory(c, query, selected))
  }

  /** While a query is typed the chip is ignored: the result is the courses
      whose title contains the query, whatever chip is selected. */
  lemma QueryIgnoresCategory(courses: seq<Course>, query: string, selected: string)
    requires query != []
    ensures FilteredCourses(courses, query, selected) == Filter(courses, c => MatchesSearch(c, query))
  {
    FilterAgrees(courses, c => MatchesSearch(c, query) && MatchesCategory(c, query, selected),
      c => MatchesSearch(c, query));
  }

  /** No query and the "All" chip: every course, in order. */
  lemma EmptyQueryAllKeepsEverything(courses: seq<Course>)
    ensures FilteredCourses(courses, [], "All") == courses
  {
    FilterKeepsAll(courses, c => MatchesSearch(c, []) && MatchesCategory(c, [], "All"));
  }

  /** No query and another chip: exactly the courses of that category, ignoring
      case; a course without a category is never shown. */
  lemma EmptyQueryFiltersByCategory(courses: seq<Course>, selected: string, c: Course)
    requires selected != "All"
    ensures c in FilteredCourses(courses, [], selected) <==> c in courses && CategoryIs(c, selected)
    ensures c.category.None? ==> c !in FilteredCourses(courses, [], selected)
  {
  }

  /** Chips that differ only in case select the same courses. */
  lemma ChipIgnoresCase(courses: seq<Course>, sel1: string, sel2: string)
    requires sel1 != "All" && sel2 != "All" && ToLower(sel1) == ToLower(sel2)
    ensures FilteredCourses(courses, [], sel1) == FilteredCourses(courses, [], sel2)
  {
    FilterAgrees(courses, c => MatchesSearch(c, []) && MatchesCategory(c, [], sel1),
      c => MatchesSearch(c, []) && MatchesCategory(c, [], sel2));
  }

  // ---------------------------------------------------------------------------
  // Sections

  /** A course belongs to section `cat`: the popular section takes the courses
      of type "popular", any other section those of category `cat` ignoring case. */
  predicate InSection(c: Course, cat: string) {
    if cat == "popular" then c.courseType == Some("popular") else CategoryIs(c, cat)
  }

  /** The courses of section `cat`: the search, the chip (not bypassed by a
      query here) and the section's own test. */
  function SectionCourses(courses: seq<Course>, query: string, selected: string, cat: string): (r: seq<Course>)
    ensures IsSubsequence(r, courses)
    ensures forall c :: c in r <==>
      c in courses && MatchesSearch(c, query) && (selected == "All" || CategoryIs(c, selected)) && InSection(c, cat)
  {
    Filter(courses, c => MatchesSearch(c, query) && (selected == "All" || CategoryIs(c, selected)) && InSection(c, cat))
  }

  /** A rendered section: its heading and its courses. */
  datatype Section = Section(title: string, courses: seq<Course>)

  /** `renderCourseSection(cat)`: nothing for an empty section, otherwise the
      heading and the courses. */
  function RenderSection(courses: seq<Course>, query: string, selected: string, cat: string): (r: Option<Section>)
    ensures r.None? <==> SectionCourses(courses, query, selected, cat) == []
    ensures r.Some? ==> r.value.title == SectionTitle(cat) && r.value.courses == SectionCourses(courses, query, selected, cat)
  {
    var cs := SectionCourses(courses, query, selected, cat);
    if cs == [] then None else Some(Section(SectionTitle(cat), cs))
  }

  /** Every course of a section is also in the filtered list: the section adds
      conditions and never bypasses the chip. */
  lemma SectionWithinFiltered(courses: seq<Course>, query: string, selected: string, cat: string)
    ensures forall c :: c in SectionCourses(courses, query, selected, cat) ==> c in FilteredCourses(courses, query, selected)
  {
  }

  /** With a chip other than "All", a section shows only courses of the chip's
      category, even while a query is typed. */
  lemma SectionRespectsChip(courses: seq<Course>, query: string, selected: string, cat: string, c: Course)
    requires selected != "All" && c in SectionCourses(courses, query, selected, cat)
    ensures CategoryIs(c, selected)
  {
  }

  // ---------------------------------------------------------------------------
  // Cards

  /** The fields of a search result card. */
  datatype Card = Card(title: string, chapters: string, banner: string)

  /** The card of a course: the title or 'No Title Available', the chapter
      count followed by " Chapters" or "No Chapters" without one, and the
      banner of the cut image key. */
  function CourseCard(c: Course): (card: Card)
    ensures card.title == CardTitle(c) && card.title != []
    ensures Truthy(c.noOfChapter) ==> card.chapters == c.noOfChapter.value + " Chapters"
    ensures !Truthy(c.noOfChapter) ==> card.chapters == "No Chapters"
    ensures var k := CutImageKey(c.image);
      card.banner == (if k in BannerImages then BannerImages[k] else BannerImages["default"])
    ensures card.banner == CutKeyBanner(c) && card.banner in BannerImages.Values
  {
    var chapters := if Truthy(c.noOfChapter) then c.noOfChapter.value + " Chapters" else "No Chapters";
    Card(CardTitle(c), chapters, CutKeyBanner(c))
  }
}

=== FILE: sign_up.dfy ===
/** The sign-up screen: the ordered validation of the form, and the account
    creation that only a valid form reaches. */
module SignUp {
  import opened Wrappers
  import opened Text

  /** The three text fields of the form. */
  datatype Form = Form(fullName: string, email: string, password: string)

  /** The reasons a form is rejected, in the order they are checked. */
  datatype FormError = NameRequired | InvalidName | InvalidEmail | PasswordTooShort | PasswordTooLong

  const MinPassword: nat := 6
  const MaxPassword: nat := 256

  /** `/\d/.test(s)`: some character of `s` is a decimal digit. */
  predicate HasDigit(s: string) {
    exists i :: 0 <= i < |s| && IsDigit(s[i])
  }

  /** The acceptable forms, stated field by field and independently of the
      order of the checks. */
  predicate Acceptable(f: Form) {
    && f.fullName != []
    && !HasDigit(f.fullName)
    && '@' in f.email
    && MinPassword <= |f.password| <= MaxPassword
  }

  /** `validateForm`: the first guard that fires names the error; `None` when
      none does. An error is reported exactly when every earlier guard passed
      and its own fails. */
  function ValidateForm(f: Form): (r: Option<FormError>)
    ensures r.None? <==> Acceptable(f)
    ensures r == Some(NameRequired) <==> f.fullName == []
    ensures r == Some(InvalidName) <==> f.fullName != [] && HasDigit(f.fullName)
    ensures r == Some(InvalidEmail) <==> f.fullName != [] && !HasDigit(f.fullName) && '@' !in f.email
    ensures r == Some(PasswordTooShort) <==>
      f.fullName != [] && !HasDigit(f.fullName) && '@' in f.email && |f.password| < MinPassword
    ensures r == Some(PasswordTooLong) <==>
      f.fullName != [] && !HasDigit(f.fullName) && '@' in f.email && |f.password| > MaxPassword
  {
    if f.fullName == [] then Some(NameRequired)
    else if HasDigit(f.fullName) then Some(InvalidName)
    else if '@' !in f.email then Some(InvalidEmail)
    else if |f.password| < MinPassword then Some(PasswordTooShort)
    else if |f.password| > MaxPassword then Some(PasswordTooLong)
    else None
  }

  /** The toast shown for each rejection. */
  function ErrorMessage(e: FormError): (msg: string)
    ensures msg != []
  {
    match e
    case NameRequired => "Full Name required"
    case InvalidName => "Invalid Name Format"
    case InvalidEmail => "Invalid Email Format"
    case PasswordTooShort => "Password too short"
    case PasswordTooLong => "Password too long"
  }

  /** Each rejection has its own message. */
  lemma ErrorMessagesDistinct(e1: FormError, e2: FormError)
    ensures ErrorMessage(e1) == ErrorMessage(e2) ==> e1 == e2
  {
  }

  /** Changing only the password never changes a rejection made by the name or
      e-mail guards, since those run first. */
  lemma PasswordIrrelevantToEarlierGuards(f: Form, password: string)
    requires ValidateForm(f) in {Some(NameRequired), Some(InvalidName), Some(InvalidEmail)}
    ensures ValidateForm(f.(password := password)) == ValidateForm(f)
  {
  }

  // ---------------------------------------------------------------------------
  // Creating the account

  /** The user document saved under `users/<email>`. */
  datatype UserRecord = UserRecord(name: string, email: string, password: string, uid: string)

  type UserStore = map<string, UserRecord>

  /** What a press of "Create Account" ends in: a validation toast, the new
      account saved and the home screen opened, or the failure toast. */
  datatype SignUpOutcome = Rejected(error: FormError) | Created(user: UserRecord) | CreateFailed

  const FailureMessage: string := "Incorrect Email & Password"

  /** `CreateNewAccount`: an invalid form stops before the authentication
      call; otherwise `authUid` is the uid the authentication service returned
      (`None` when it rejected), and `writeOk` whether saving the user document
      succeeded. A failed save ends in the same failure toast, as it rejects
      the same promise chain. Only a created account changes the store, and
      only at the form's e-mail. */
  function CreateNewAccount(f: Form, authUid: Option<string>, writeOk: bool, users: UserStore)
    : (r: (SignUpOutcome, UserStore))
    ensures r.0.Rejected? <==> !Acceptable(f)
    ensures r.0.Rejected? ==> Some(r.0.error) == ValidateForm(f)
    ensures r.0.Created? <==> Acceptable(f) && authUid.Some? && writeOk
    ensures r.0.Created? ==>
      && r.0.user == UserRecord(f.fullName, f.email, f.password, authUid.value)
      && r.1 == users[f.email := r.0.user]
    ensures !r.0.Created? ==> r.1 == users
  {
    match ValidateForm(f)
    case Some(e) => (Rejected(e), users)
    case None =>
      if authUid.Some? && writeOk then
        var user := UserRecord(f.fullName, f.email, f.password, authUid.value);
        (Created(user), users[f.email := user])
      else (CreateFailed, users)
  }

  /** The toast a press ends with: the validation message, nothing when the
      account was created (the home screen opens instead), or the failure
      message. */
  function OutcomeToast(o: SignUpOutcome): (msg: Option<string>)
    ensures msg.None? <==> o.Created?
    ensures o.Rejected? ==> msg == Some(ErrorMessage(o.error))
    ensures o.CreateFailed? ==> msg == Some(FailureMessage)
  {
    match o
    case Rejected(e) => Some(ErrorMessage(e))
    case Created(_) => None
    case CreateFailed => Some(FailureMessage)
  }

  /** A rejected form never reaches the authentication service: its outcome
      is the same whatever the service would have answered. */
  lemma RejectedFormIgnoresService(f: Form, uid1: Option<string>, ok1: bool, uid2: Option<string>, ok2: bool,
                                   users: UserStore)
    requires !Acceptable(f)
    ensures CreateNewAccount(f, uid1, ok1, users) == CreateNewAccount(f, uid2, ok2, users)
  {
  }
}

=== FILE: text.dfy ===
/** The JavaScript string primitives the screens use — `trim`, `toLowerCase`,
    `toUpperCase`, `includes`, `split`, `parseInt` and number-to-string — on
    strings as sequences of characters. Case mapping and white space are the
    ASCII ones (see README). */
module Text {
  import opened Wrappers

  /** JavaScript truthiness of an optional string: present and non-empty. */
  predicate Truthy(o: Option<string>) {
    o.Some? && o.value != ""
  }

  // ---------------------------------------------------------------------------
  // White space and trim

  /** The white-space characters `String.prototype.trim` removes (ASCII subset). */
  predicate IsSpace(c: char) {
    c == ' ' || c == '\t' || c == '\n' || c == '\r' || c == '\U{000B}' || c == '\U{000C}'
  }

  /** `s.trimStart()`: the suffix of `s` after its leading white space. */
  function TrimStart(s: string): (r: string)
    ensures |r| <= |s| && r == s[|s| - |r|..]
    ensures r == [] || !IsSpace(r[0])
    ensures forall i :: 0 <= i < |s| - |r| ==> IsSpace(s[i])
  {
    if s != [] && IsSpace(s[0]) then TrimStart(s[1..]) else s
  }

  /** `s.trimEnd()`: the prefix of `s` before its trailing white space. */
  function TrimEnd(s: string): (r: string)
    ensures |r| <= |s| && r == s[..|r|]
    ensures r == [] || !IsSpace(r[|r| - 1])
    ensures forall i :: |r| <= i < |s| ==> IsSpace(s[i])
  {
    if s != [] && IsSpace(s[|s| - 1]) then TrimEnd(s[..|s| - 1]) else s
  }

  /** `s.trim()`: `TrimStart` and `TrimEnd` together. */
  function Trim(s: string): string {
    TrimEnd(TrimStart(s))
  }

  /** Trimming only removes characters: every character of the trimmed
      string is a character of `s`. */
  lemma TrimKeepsCharacters(s: string)
    ensures forall c :: c in Trim(s) ==> c in s
  {
    var t := TrimStart(s);
    var r := TrimEnd(t);
    forall c | c in r ensures c in s {
      var i :| 0 <= i < |r| && r[i] == c;
      assert r[i] == t[i];
      assert t[i] == s[|s| - |t| + i];
    }
  }

  /** A string that neither starts nor ends with white space is its own trim. */
  lemma TrimKeepsUnpadded(s: string)
    requires s == [] || (!IsSpace(s[0]) && !IsSpace(s[|s| - 1]))
    ensures Trim(s) == s
  {
    assert TrimStart(s) == s;
  }

  /** A string is blank (`!s.trim()`) exactly when all its characters are white space. */
  lemma BlankIffAllSpace(s: string)
    ensures Trim(s) == [] <==> forall i :: 0 <= i < |s| ==> IsSpace(s[i])
  {
  }

  // ---------------------------------------------------------------------------
  // Case mapping

  predicate IsUpper(c: char) { 'A' <= c <= 'Z' }
  predicate IsLower(c: char) { 'a' <= c <= 'z' }

  function ToLowerChar(c: char): (r: char)
    ensures !IsUpper(r)
    ensures IsUpper(c) ==> IsLower(r)
    ensures !IsUpper(c) ==> r == c
  {
    if IsUpper(c) then (c as int - 'A' as int + 'a' as int) as char else c
  }

  function ToUpperChar(c: char): (r: char)
    ensures !IsLower(r)
    ensures IsLower(c) ==> IsUpper(r) && ToLowerChar(r) == c
    ensures !IsLower(c) ==> r == c
  {
    if IsLower(c) then (c as int - 'a' as int + 'A' as int) as char else c
  }

  /** `s.toLowerCase()`: the same length, no upper-case letter left, and every
      other character kept. */
  function ToLower(s: string): (r: string)
    ensures |r| == |s|
    ensures forall i :: 0 <= i < |s| ==> r[i] == ToLowerChar(s[i])
  {
    seq(|s|, i requires 0 <= i < |s| => ToLowerChar(s[i]))
  }

  /** A string without upper-case letters is its own lower-case form. */
  lemma ToLowerKeepsLower(s: string)
    requires forall i :: 0 <= i < |s| ==> !IsUpper(s[i])
    ensures ToLower(s) == s
  {
  }

  // ---------------------------------------------------------------------------
  // Substrings: `s.includes(p)`

  /** `p` occurs in `s` starting at index `i`. */
  predicate HasAt(s: string, p: string, i: int) {
    0 <= i && i + |p| <= |s| && s[i..i + |p|] == p
  }

  /** `s.includes(p)`. */
  predicate Contains(s: string, p: string) {
    exists i | 0 <= i <= |s| - |p| :: HasAt(s, p, i)
  }

  /** `includes` finds the empty string and the text itself in any text, and
      never a pattern longer than the text. */
  lemma ContainsEmptyAndSelf(s: string, p: string)
    ensures Contains(s, "") && Contains(s, s)
    ensures |p| > |s| ==> !Contains(s, p)
  {
    assert HasAt(s, "", 0);
    assert HasAt(s, s, 0);
  }

  /** One occurrence is enough for `includes`. */
  lemma ContainsAt(s: string, p: string, i: int)
    requires HasAt(s, p, i)
    ensures Contains(s, p)
  {
  }

  /** A text written around `p` holds `p` right after its first part. */
  lemma HasAtMiddle(a: string, p: string, b: string)
    ensures HasAt(a + p + b, p, |a|)
  {
    assert (a + p + b)[|a|..|a| + |p|] == p;
  }

  /** Absence by a unique character: if the `k`-th character of `p` occurs in
      `s` only at index `j`, then `p` could only occur at `j - k`, so if it does
      not occur there it does not occur at all. */
  lemma NotContainsByUniqueChar(s: string, p: string, k: nat, j: nat)
    requires k < |p| && j < |s|
    requires p[k] !in s[..j] && p[k] !in s[j + 1..]
    requires j < k || !HasAt(s, p, j - k)
    ensures !Contains(s, p)
  {
    forall i | 0 <= i <= |s| - |p| ensures !HasAt(s, p, i) {
      assert s[i..i + |p|][k] == s[i + k];
      if i + k < j {
        assert s[..j][i + k] == s[i + k];
      } else if j < i + k {
        assert s[j + 1..][i + k - j - 1] == s[i + k];
      }
    }
  }

  /** A pattern with a character that `s` lacks does not occur in `s`. */
  lemma NotContainsByMissingChar(s: string, p: string, k: nat)
    requires k < |p| && p[k] !in s
    ensures !Contains(s, p)
  {
    forall i | 0 <= i <= |s| - |p| ensures !HasAt(s, p, i) {
      assert s[i..i + |p|][k] == s[i + k];
    }
  }

  // ---------------------------------------------------------------------------
  // split

  /** `s.split(c)[0]`: the part of `s` before the first `c` (all of `s` when
      there is none). */
  function BeforeFirst(s: string, c: char): (r: string)
    ensures |r| <= |s| && r == s[..|r|]
    ensures c !in r
    ensures |r| < |s| ==> s[|r|] == c
  {
    if s == [] || s[0] == c then [] else [s[0]] + BeforeFirst(s[1..], c)
  }

  /** Cutting `s + c + rest` at the first `c` gives `s` back when `s` has no `c`. */
  lemma {:induction false} BeforeFirstOfJoin(s: string, c: char, rest: string)
    requires c !in s
    ensures BeforeFirst(s + [c] + rest, c) == s
  {
    if s != [] {
      assert (s + [c] + rest)[1..] == s[1..] + [c] + rest;
      BeforeFirstOfJoin(s[1..], c, rest);
    }
  }

  /** Join `ws` with the separator `c` between consecutive parts (`ws.join(c)`). */
  function JoinWith(ws: seq<string>, c: char): string {
    if |ws| == 0 then []
    else if |ws| == 1 then ws[0]
    else ws[0] + [c] + JoinWith(ws[1..], c)
  }

  /** An occurrence in either part is an occurrence in the concatenation. */
  lemma ContainsInConcat(a: string, b: string, p: string)
    ensures Contains(a, p) ==> Contains(a + b, p)
    ensures Contains(b, p) ==> Contains(a + b, p)
  {
    if Contains(a, p) {
      var i :| 0 <= i <= |a| - |p| && HasAt(a, p, i);
      assert (a + b)[i..i + |p|] == a[i..i + |p|];
      assert HasAt(a + b, p, i);
    }
    if Contains(b, p) {
      var i :| 0 <= i <= |b| - |p| && HasAt(b, p, i);
      assert (a + b)[|a| + i..|a| + i + |p|] == b[i..i + |p|];
      assert HasAt(a + b, p, |a| + i);
    }
  }

  /** A pattern without the separator cannot straddle it: an occurrence in
      `a + [c] + b` lies within `a` or within `b`. */
  lemma OccurrenceAvoidsSeparator(a: string, c: char, b: string, p: string)
    requires c !in p && Contains(a + [c] + b, p)
    ensures Contains(a, p) || Contains(b, p)
  {
    var s := a + [c] + b;
    var i :| 0 <= i <= |s| - |p| && HasAt(s, p, i);
    assert s[|a|] == c;
    assert forall j :: 0 <= j < |p| ==> p[j] == s[i + j] by {
      forall j | 0 <= j < |p| ensures p[j] == s[i + j] {
        assert s[i..i + |p|][j] == s[i + j];
      }
    }
    if i + |p| <= |a| {
      assert a[i..i + |p|] == s[i..i + |p|];
      assert HasAt(a, p, i);
    } else if i > |a| {
      assert b[i - |a| - 1..i - |a| - 1 + |p|] == s[i..i + |p|];
      assert HasAt(b, p, i - |a| - 1);
    }
  }

  /** An occurrence in one line is an occurrence in the text. */
  lemma {:induction false} ContainsInJoin(ws: seq<string>, c: char, k: nat, p: string)
    requires k < |ws| && Contains(ws[k], p)
    ensures Contains(JoinWith(ws, c), p)
    decreases k
  {
    if |ws| > 1 {
      var rest := JoinWith(ws[1..], c);
      if k == 0 {
        ContainsInConcat(ws[0], [c] + rest, p);
        assert ws[0] + [c] + rest == ws[0] + ([c] + rest);
      } else {
        ContainsInJoin(ws[1..], c, k - 1, p);
        ContainsInConcat(ws[0] + [c], rest, p);
      }
    }
  }

  /** A pattern without the separator that no line contains does not occur in
      the text. */
  lemma {:induction false} NotContainsInJoin(ws: seq<string>, c: char, p: string)
    requires |ws| >= 1 && c !in p
    requires forall k :: 0 <= k < |ws| ==> !Contains(ws[k], p)
    ensures !Contains(JoinWith(ws, c), p)
  {
    if |ws| > 1 {
      NotContainsInJoin(ws[1..], c, p);
      if Contains(JoinWith(ws, c), p) {
        OccurrenceAvoidsSeparator(ws[0], c, JoinWith(ws[1..], c), p);
        assert false;
      }
    }
  }

  /** `s.split(c)` for a one-character separator: never empty, no part contains
      the separator, and joining the parts with it gives `s` back. */
  function Split(s: string, c: char): (r: seq<string>)
    ensures |r| >= 1
    ensures forall k :: 0 <= k < |r| ==> c !in r[k]
    ensures JoinWith(r, c) == s
    decreases |s|
  {
    var w := BeforeFirst(s, c);
    if |w| == |s| then [s]
    else
      var rest := Split(s[|w| + 1..], c);
      assert s == w + [c] + s[|w| + 1..];
      [w] + rest
  }

  // ---------------------------------------------------------------------------
  // Digits, number to string and parseInt

  predicate IsDigit(c: char) { '0' <= c <= '9' }

  function DigitChar(d: nat): (c: char)
    requires d < 10
    ensures IsDigit(c)
  {
    ('0' as int + d) as char
  }

  function DigitValue(c: char): (d: nat)
    requires IsDigit(c)
    ensures d < 10 && DigitChar(d) == c
  {
    c as int - '0' as int
  }

  /** The decimal numeral of `n` (`String(n)` / template interpolation). */
  function NatToString(n: nat): (r: string)
    ensures |r| >= 1
    ensures forall i :: 0 <= i < |r| ==> IsDigit(r[i])
    ensures n < 10 <==> |r| == 1
    ensures n < 100 <==> |r| <= 2
  {
    if n < 10 then [DigitChar(n)] else NatToString(n / 10) + [DigitChar(n % 10)]
  }

  /** The value of a string of digits, most significant first. */
  function DigitsValue(ds: string): nat
    requires forall i :: 0 <= i < |ds| ==> IsDigit(ds[i])
  {
    if ds == [] then 0 else DigitsValue(ds[..|ds| - 1]) * 10 + DigitValue(ds[|ds| - 1])
  }

  /** Reading the numeral of `n` gives `n`. */
  lemma {:induction false} NatToStringValue(n: nat)
    ensures DigitsValue(NatToString(n)) == n
  {
    if n >= 10 {
      var r := NatToString(n);
      assert r[..|r| - 1] == NatToString(n / 10);
      NatToStringValue(n / 10);
    }
  }

  /** The longest prefix of `s` made of digits. */
  function LeadingDigits(s: string): (r: string)
    ensures |r| <= |s| && r == s[..|r|]
    ensures forall i :: 0 <= i < |r| ==> IsDigit(r[i])
    ensures |r| < |s| ==> !IsDigit(s[|r|])
  {
    if s != [] && IsDigit(s[0]) then [s[0]] + LeadingDigits(s[1..]) else []
  }

  /** `t` without its sign character, if it starts with one. */
  function AfterSign(t: string): string {
    if t != [] && (t[0] == '-' || t[0] == '+') then t[1..] else t
  }

  /** `parseInt(s, 10)`: skip leading white space, read an optional sign and the
      longest run of digits after it; `None` stands for `NaN`. */
  function ParseInt(s: string): Option<int> {
    var t := TrimStart(s);
    var negative := t != [] && t[0] == '-';
    var ds := LeadingDigits(AfterSign(t));
    if ds == [] then None
    else if negative then Some(-(DigitsValue(ds) as int))
    else Some(DigitsValue(ds))
  }

  /** The digit run of `b` ending at `k` is its longest prefix of digits. */
  lemma LeadingDigitsOfRun(b: string, k: nat)
    requires k <= |b| && (forall i :: 0 <= i < k ==> IsDigit(b[i])) && (k == |b| || !IsDigit(b[k]))
    ensures LeadingDigits(b) == b[..k]
  {
    var ds := LeadingDigits(b);
    if |ds| != k {
      assert false;
    }
  }

  /** When digits follow the white space and the optional sign, `parseInt`
      gives the value of the digits up to the first non-digit, negated after a
      `-`. */
  lemma ParseIntReadsSignedDigits(s: string, k: nat)
    requires var b := AfterSign(TrimStart(s));
      0 < k <= |b| && (forall i :: 0 <= i < k ==> IsDigit(b[i])) && (k == |b| || !IsDigit(b[k]))
    ensures var t := TrimStart(s); var v: int := DigitsValue(AfterSign(t)[..k]);
      ParseInt(s) == Some(if t[0] == '-' then -v else v)
  {
    LeadingDigitsOfRun(AfterSign(TrimStart(s)), k);
  }

  /** `parseInt` gives `NaN` exactly when no digit follows the white space and
      the optional sign. */
  lemma ParseIntNaN(s: string)
    ensures var b := AfterSign(TrimStart(s));
      ParseInt(s).None? <==> b == [] || !IsDigit(b[0])
  {
  }

  /** `parseInt` reads back the numeral of `n`, whatever non-digit text follows it. */
  lemma ParseIntOfNumeral(n: nat, rest: string)
    requires rest == [] || !IsDigit(rest[0])
    ensures ParseInt(NatToString(n) + rest) == Some(n)
  {
    var s := NatToString(n) + rest;
    assert s[0] == NatToString(n)[0];
    assert TrimStart(s) == s;
    LeadingDigitsOfNumeral(NatToString(n), rest);
    NatToStringValue(n);
  }

  lemma {:induction false} LeadingDigitsOfNumeral(ds: string, rest: string)
    requires forall i :: 0 <= i < |ds| ==> IsDigit(ds[i])
    requires rest == [] || !IsDigit(rest[0])
    ensures LeadingDigits(ds + rest) == ds
  {
    if ds != [] {
      assert (ds + rest)[1..] == ds[1..] + rest;
      LeadingDigitsOfNumeral(ds[1..], rest);
    } else {
      assert ds + rest == rest;
    }
  }
}

=== FILE: wrappers.dfy ===
/** Optional values and the outcome of a remote document read. */
module Wrappers {

  /** A value that may be absent (`undefined`/`null` in the app). */
  datatype Option<+T> = None | Some(value: T) {
    function GetOr(default: T): T {
      match this
      case Some(v) => v
      case None => default
    }
  }

  /** What a read of one remote document gives back: the document, "does not
      exist", or a failed read (the promise rejected). */
  datatype Fetch<+T> = Found(doc: T) | Missing | Failed
}
